=== FILE: README.md ===
# KS8851 SPI Ethernet driver core, modelled in Dafny

This project models the data path of the Micrel KS8851 SPI Ethernet
driver (`drivers/net/ethernet/micrel/ks8851.c`) and proves properties of
it. The parts covered are:

- **Register access.** This covers:
  - the SPI command word `MK_OP`, with its byte-enable lanes;
  - the 8-bit and 16-bit register reads and writes;
  - the 32-bit fast-path read, with its byte swaps;
  - the power-mode and link-wake-up updates of KS_PMECR.
- **Receive.** This covers:
  - the size probe `ks8851_rdfifolen`, which reads every queued frame's length and sums the aligned sizes, capped at 12 KiB;
  - the receive run `ks8851_rx_pkts3`: frame count, probe, one bulk FIFO read, and the walk that cuts the buffer into frames;
  - the short-buffer recovery read and the release of the receive queue.
- **Transmit.** This covers:
  - the space budget of `ks8851_start_xmit`;
  - the batching of queued frames into one TX FIFO transfer by `ks8851_wrpkts3`, with frame ids and the completion-interrupt flag;
  - the loop of `ks8851_tx_work` that drains the queue.
- **The interrupt handler `ks8851_irq`.** This covers:
  - the acknowledge mask and its position before any FIFO access;
  - the state updates (transmit space, overrun count);
  - the receive run and the filter writes it triggers.
- **The receive filter.** This covers:
  - the settings `ks8851_set_rx_mode` computes, with the multicast hash table;
  - the "schedule only if changed" step;
  - the writes that program the filter.
- **Ethtool/MII glue.** This covers:
  - the EEPROM byte write `ks8851_set_eeprom`;
  - the MII-to-chip register map `ks8851_phy_reg`;
  - `ks8851_phy_read`.

**How the model is built.**
- Every bus exchange is an `Action` in a log. A run's contract talks about that log: which register is written with which value, and in what order.
- Values the chip returns are inputs:
  - status words, probe words and FIFO contents, given as functions from index to word;
  - allocation outcomes, given as booleans.
- A 32-bit FIFO word is four bytes, and the host is little-endian:
  - `htonl` reverses the four bytes;
  - what travels over a 32-bit SPI transfer is the word's bytes most significant first.
- Integer widths of the source are written out where they matter: `rxlen - 4` and `totallen` as 32-bit unsigned, the `u16` size accumulator and the `u8` frame id.

**The receive walk comes in two versions.**
- `RxDecode.DecodeAsWritten` follows the loop at lines 646-691 as written.
- `RxDecode.Decode` is a corrected walk. It checks each frame against the buffer it actually has.

Both deliver exactly the queued frames when the bulk read holds them all (`RxImage.FifoRoundTrip`, `RxPipeline.RxPktsDeliversQueue`). They differ wherever the as-written walk would touch memory outside a buffer; Findings gives concrete inputs. The interrupt handler uses the corrected pipeline.

**A latent overrun in the recovery path.**
- The recovery buffer is allocated with `rxlen` bytes (line 657), but the byte swap at lines 670-671 touches `ALIGN(rxlen, 4)` bytes of it.
- `RxDecode.RecoverAsWritten` records this as a `RecoverySwap` overrun.
- It is checked after the copy, and the copy as written always overruns first (Findings, second row).

**Two smaller facts the proofs make explicit (not defects).**
- The `len >= 6144` half of the TXIC test at ks8851.c:864 can never be true inside the loop, because the loop condition already requires `len < 6144`. Only the last frame of the queue asks for a completion interrupt (`Tx.PackIrqOnlyOnLast`).
- `ret` at ks8851.c:892 is read uninitialised only when the batch is empty. `ks8851_tx_work` calls `ks8851_wrpkts3` only on a non-empty queue, and then a successful allocation always sends at least one frame (`Tx.WrPkts3Bounds`).

**Three facts of the driver the model keeps.**
- The transmit header is 4 bytes: a 16-bit control word and a 16-bit length (lines 866-867).
- The probe aligns each probed length itself (line 563). Frames of 100 and 3000 bytes give the estimate `104 + 3004 + 4 = 3112`.
- A frame completed by the recovery read ends the walk (lines 687-690).

## Model

The source column is relative to the repository root. The register numbers and bit values come from the KS8851 register map; `ks8851.h` is not part of this model.

| member | source | states |
|---|---|---|
| RegAccess.CommandRoundTrip | drivers/net/ethernet/micrel/ks8851.c:158-161 | The chip recovers the opcode, the 4-bit byte-enable mask and the 8-bit register number from the command word `MK_OP(byteen, reg) \| op`. |
| RegAccess.CommandWordsAreEncodings | drivers/net/ethernet/micrel/ks8851.c:158-161 | Every 16-bit word with bits 9-8 clear is the command word of its own decoding, so `MK_OP` is a bijection onto those words. |
| RegAccess.Lane8 | drivers/net/ethernet/micrel/ks8851.c:219 | The byte-enable mask of an 8-bit access selects exactly byte lane `reg % 4`. |
| RegAccess.Lane16 | drivers/net/ethernet/micrel/ks8851.c:191 | The byte-enable mask of a 16-bit access selects exactly the two lanes of the halfword that holds `reg`. |
| RegAccess.Lane8WithinLane16 | drivers/net/ethernet/micrel/ks8851.c:191-221 | An 8-bit access enables a subset of the lanes the 16-bit access to the same register enables. |
| RegAccess.Write16Command | drivers/net/ethernet/micrel/ks8851.c:191 | The `wrreg16` command decodes to a write of the register, by its own number, with its halfword lanes. |
| RegAccess.Read16Command | drivers/net/ethernet/micrel/ks8851.c:314 | The `rdreg16` command decodes to a read of the register with its halfword lanes. |
| RegAccess.Write8Command | drivers/net/ethernet/micrel/ks8851.c:219-221 | The `wrreg8` command decodes to a write of the register with its single lane. |
| RegAccess.Read8Command | drivers/net/ethernet/micrel/ks8851.c:329 | The `rdreg8` command decodes to a read of the register with its single lane. |
| RegAccess.Write16Frame | drivers/net/ethernet/micrel/ks8851.c:191-196 | The 4 bytes sent are the little-endian command followed by the little-endian value. |
| RegAccess.Write8Frame | drivers/net/ethernet/micrel/ks8851.c:221-226 | The 3 bytes sent are the little-endian command followed by the low byte of the value. |
| RegAccess.FastPathMatchesPlainRead | drivers/net/ethernet/micrel/ks8851.c:344-356 | The 32-bit fast read puts the same command bytes on the wire as the plain 16-bit read, followed by two zero bytes. The value it returns is the little-endian halfword in the last two reply bytes. |
| RegAccess.PowerModeValue | drivers/net/ethernet/micrel/ks8851.c:393-397 | The PM field of the written KS_PMECR holds the requested mode, and every other bit keeps the value read. |
| RegAccess.SetPowerMode | drivers/net/ethernet/micrel/ks8851.c:387-398 | `set_powermode` reads KS_PMECR, then writes it back with only the PM field replaced. |
| RegAccess.LinkWakeValue | drivers/net/ethernet/micrel/ks8851.c:725-727 | The wake-event field becomes "link change", and every other bit of KS_PMECR is kept. |
| Bits.AlignU32 | drivers/net/ethernet/micrel/ks8851.c:650 | 32-bit `ALIGN(x, 4)` is the next multiple of 4 unless that would pass 2^32, where it wraps to 0. |
| Bits.SubU32 | drivers/net/ethernet/micrel/ks8851.c:650 | 32-bit unsigned subtraction wraps below zero. |
| Words.WireOfSwapped | drivers/net/ethernet/micrel/ks8851.c:869-871 | Applying `htonl` to every word before a 32-bit transfer puts the buffer's memory bytes on the wire in memory order. |
| RxSize.ProbeLen | drivers/net/ethernet/micrel/ks8851.c:563 | The probed length (`htons` of the low half, masked with 0xfff) is below 4096. |
| RxSize.Estimate | drivers/net/ethernet/micrel/ks8851.c:529-573 | `rdfifolen` returns -ENOMEM when an allocation fails. Otherwise it returns a multiple of 4 between 4 and 12288. When the queue fits under the cap, that is exactly 4 plus the sum of each frame's aligned length plus 4; once that total reaches 12288, it is exactly 12288. |
| RxSize.RdFifoLen | drivers/net/ethernet/micrel/ks8851.c:560-567 | The loop with its early exit at the cap computes the estimate, and its u16 accumulator never passes 16388, so it never wraps. |
| RxDecode.EnvelopeLen | drivers/net/ethernet/micrel/ks8851.c:648 | The length read from an envelope word is a 12-bit byte count. |
| RxDecode.RxAlignIsUnsigned | drivers/net/ethernet/micrel/ks8851.c:650 | `rxalign` is the 32-bit unsigned `ALIGN(rxlen - 4, 4)`, including the wrap for lengths below 4. |
| RxDecode.RxAlignWords | drivers/net/ethernet/micrel/ks8851.c:650-651 | For lengths of at least 4, the bytes handed to the stack are the swapped words less one, the CRC word. |
| RxDecode.RecoverAsWritten | drivers/net/ethernet/micrel/ks8851.c:653-668 | The recovery as written issues exactly one follow-up read and ends either recovered or in an overrun. |
| RxDecode.StepAsWrittenShape | drivers/net/ethernet/micrel/ks8851.c:646-690 | A pass that delivers a frame moves past its envelope and payload. Every other pass ends the walk without draining the queue, and delivers at most one frame. |
| RxDecode.DecodeAsWrittenShape | drivers/net/ethernet/micrel/ks8851.c:646-691 | The walk as written delivers at most the frame count, and all of it when it drains. It issues at most one follow-up read, and each frame holds `rxalign` bytes of its swapped words. |
| RxDecode.Recover | drivers/net/ethernet/micrel/ks8851.c:653-668 | Corrected recovery: the words of the frame already in the buffer are kept, and exactly the missing ones are read. The frame is then whole. |
| RxDecode.DecodeShape | drivers/net/ethernet/micrel/ks8851.c:646-691 | The corrected walk delivers at most the frame count, and all of it when it drains. Every delivered frame is whole, and a follow-up read happens exactly when the walk ends recovered. |
| RxImage.EnvelopeRoundTrip | drivers/net/ethernet/micrel/ks8851.c:648 | The byte count the chip writes into an envelope is the one the driver reads back. |
| RxImage.DecodeImage | drivers/net/ethernet/micrel/ks8851.c:646-691 | When the buffer holds every queued frame, the corrected walk returns exactly those frames in order. |
| RxImage.DecodeAsWrittenImage | drivers/net/ethernet/micrel/ks8851.c:646-691 | The same holds for the walk as written, as long as `totallen` stays within the buffer size. |
| RxImage.FifoRoundTrip | drivers/net/ethernet/micrel/ks8851.c:641-691 | A bulk buffer holding the dummy word and every queued frame decodes, by either walk, to the queued frames with no follow-up read. |
| RxPipeline.NoFifoReadBeforeDma | drivers/net/ethernet/micrel/ks8851.c:615-624 | Reading the frame count and probing the lengths neither reads the FIFO nor writes a register. |
| RxPipeline.RxPktsShape | drivers/net/ethernet/micrel/ks8851.c:615-693 | The run starts with the frame count read. A zero count does nothing else. It delivers at most the frame count, and issues one bulk read plus one follow-up read exactly when it ends recovered. Once DMA starts, the run ends by releasing the queue. |
| RxPipeline.RxPktsAsWrittenShape | drivers/net/ethernet/micrel/ks8851.c:615-693 | As written, the early return after a failed recovery allocation (line 659) skips the queue release at line 693. The release is logged exactly when the walk drains, hits the cap or recovers; a run cut off at an out-of-bounds access also has none (see Left out). |
| RxPipeline.RecoveryAllocFailureReachable | drivers/net/ethernet/micrel/ks8851.c:657-659 | A one-frame queue whose probe under-reports its length reaches the recovery allocation. If that allocation fails, the run returns with DMA started. |
| RxPipeline.CorrectedReleasesOnAllocFailure | drivers/net/ethernet/micrel/ks8851.c:657-693 | In the corrected pipeline, a failed recovery allocation still ends with the queue release. |
| RxPipeline.ConsistentDecode | drivers/net/ethernet/micrel/ks8851.c:624-691 | When the probes report the queued frames, the estimate is the exact buffer size and both walks decode the bulk read to the queued frames. |
| RxPipeline.RxBytesDelivered | drivers/net/ethernet/micrel/ks8851.c:685-686 | The receive byte counter grows by the envelope lengths of the queued frames. |
| RxPipeline.RxPktsDeliversQueue | drivers/net/ethernet/micrel/ks8851.c:615-693 | End to end: when the chip's probes and FIFO agree and fit in 12 KiB, both pipelines do the same thing. They read the count, probe, start DMA, make one bulk read of the exact size, deliver every queued frame in order and release the queue. |
| Tx.CalcTxLen | drivers/net/ethernet/micrel/ks8851.c:801-804 | The FIFO space a frame needs is the least multiple of 4 that is at least its length plus the 4-byte header. |
| Tx.CalcTxLenUnique | drivers/net/ethernet/micrel/ks8851.c:801-804 | No other value has that property. |
| Tx.StartXmit | drivers/net/ethernet/micrel/ks8851.c:1086-1099 | A frame is refused as busy exactly when it needs more than the space left; then nothing changes and the queue stops. Otherwise it is appended and the space shrinks by exactly what it needs. Either way the transmit work is queued. |
| Tx.StartXmitKeepsCommitted | drivers/net/ethernet/micrel/ks8851.c:1091-1096 | The space budget plus the needs of the queued frames is preserved by every send attempt. |
| Tx.TxHeaderWire | drivers/net/ethernet/micrel/ks8851.c:866-867 | After the `htonl` and the 32-bit transfer, the header reaches the chip as the little-endian control word followed by the little-endian length. |
| Tx.Ctrl | drivers/net/ethernet/micrel/ks8851.c:862-865 | The control word carries the 6-bit frame id, and its top bit is set exactly when a completion interrupt is asked for. |
| Tx.PacketWire | drivers/net/ethernet/micrel/ks8851.c:866-871 | A packet in the FIFO is its header followed by the frame's memory bytes, in memory order. |
| Tx.Pack | drivers/net/ethernet/micrel/ks8851.c:857-872 | The batch stays 4 times its word count, and under the buffer bound. A batch started under 6144 bytes takes at least one frame, and it stops early only once it reaches 6144 bytes. |
| Tx.PackStopsAtCap | drivers/net/ethernet/micrel/ks8851.c:857-872 | The batch's byte count is exactly what the taken frames need, and the last frame taken was added while under 6144 bytes, so no frame is taken once 6144 bytes are packed. |
| Tx.WrPkts3 | drivers/net/ethernet/micrel/ks8851.c:846-886 | The frame id advances by the number of frames sent, modulo 256. |
| Tx.WrPkts3Bounds | drivers/net/ethernet/micrel/ks8851.c:846-893 | The transfer fits the 24 KiB DMA buffer and a u16 length. A failed allocation sends nothing. A successful one on a non-empty queue sends at least one frame, and frames are left behind only when 6144 bytes are reached. |
| Tx.WrPkts3StopsAtCap | drivers/net/ethernet/micrel/ks8851.c:846-872 | A transfer's length is exactly what its frames need, and its last frame was taken while under 6144 bytes, so none is taken after 6144 bytes. |
| Tx.WrPkts3RoundTrip | drivers/net/ethernet/micrel/ks8851.c:846-886 | Parsing the transfer gives back the first frames of the queue, in order, each with its consecutive frame id and its interrupt flag. |
| Tx.PackIrqOnlyOnLast | drivers/net/ethernet/micrel/ks8851.c:857-865 | Within a batch, a packet asks for a completion interrupt exactly when it is the last frame of the queue. |
| Tx.Batches | drivers/net/ethernet/micrel/ks8851.c:924-927 | Across the repeated `wrpkts3` calls, the frame id advances by the number of frames sent, modulo 256. |
| Tx.BatchesProgress | drivers/net/ethernet/micrel/ks8851.c:924-927 | The repeated calls send a prefix of the queue, and what is left is exactly the rest. |
| Tx.BatchesSendInOrder | drivers/net/ethernet/micrel/ks8851.c:924-927 | Read one after another, the transfers carry the sent frames in queue order with consecutive frame ids. |
| Tx.BatchesStats | drivers/net/ethernet/micrel/ks8851.c:873-874 | `tx_bytes` grows by exactly the lengths of the frames sent. |
| Tx.AllAllocsDrain | drivers/net/ethernet/micrel/ks8851.c:924-927 | When every allocation succeeds, the loop empties the queue. |
| Tx.TxWorkDrains | drivers/net/ethernet/micrel/ks8851.c:913-931 | `tx_work` on a non-empty queue enables auto-enqueue and starts DMA, sends every queued frame in order, and ends by writing back the cached RXQCR. Between the opening and closing writes, the log is exactly one TX FIFO write per transfer, in order. |
| Irq.Handled | drivers/net/ethernet/micrel/ks8851.c:721-756 | The acknowledge mask is the status restricted to the six handled events. It never includes the overrun or transmit-stopped bits. |
| Irq.IrqActions | drivers/net/ethernet/micrel/ks8851.c:716-782 | The handler starts by reading KS_ISR. When RXPSI is set, it ends with the six filter writes. |
| Irq.IrqState | drivers/net/ethernet/micrel/ks8851.c:742-785 | The transmit space becomes the KS_TXMIR value exactly when TXI is set, and the overrun count grows by one exactly when RXOI is set. The filter settings are untouched. |
| Irq.HandleIrq | drivers/net/ethernet/micrel/ks8851.c:709-791 | The handler acknowledges the handled events. It wakes the transmit queue exactly on TXI and checks the link exactly on LCI. |
| Irq.AckBeforeReceive | drivers/net/ethernet/micrel/ks8851.c:716-766 | The KS_ISR write is the only one of the run. No FIFO is touched before it, and the receive run follows it directly. |
| Irq.AckLeavesOnlyUnhandled | drivers/net/ethernet/micrel/ks8851.c:758 | After the write-1-to-clear acknowledge, no handled event stays pending. Overrun and transmit-stopped stay as they were. |
| Irq.QuietInterrupt | drivers/net/ethernet/micrel/ks8851.c:716-758 | An empty status leads to one read, one zero acknowledge and no state change. |
| RxFilter.Crc6 | drivers/net/ethernet/micrel/ks8851.c:1151-1152 | The top six bits of a CRC form a hash value below 64. |
| RxFilter.AddHashAccepts | drivers/net/ethernet/micrel/ks8851.c:1154 | Setting one address's bit makes the table accept that hash value and changes nothing else. |
| RxFilter.HashTableExact | drivers/net/ethernet/micrel/ks8851.c:1150-1155 | The table accepts a hash value exactly when some listed address has it. |
| RxFilter.RxMode | drivers/net/ethernet/micrel/ks8851.c:1133-1168 | Every mode keeps unicast, broadcast, receive and flow control on and reads whole frames. The mode bits follow the precedence promiscuous, all-multicast, listed multicast, plain. The hash table is non-empty only in the listed-multicast mode. |
| RxFilter.RxModeHashExact | drivers/net/ethernet/micrel/ks8851.c:1144-1157 | In listed-multicast mode, the settings accept exactly the listed addresses' hash values. |
| RxFilter.SetRxMode | drivers/net/ethernet/micrel/ks8851.c:1172-1179 | The new settings are stored, and the work is scheduled exactly when they differ from the stored ones. |
| RxFilter.SetRxModeIdempotent | drivers/net/ethernet/micrel/ks8851.c:1174-1177 | Asking twice for the same mode schedules nothing the second time. |
| RxFilter.RxCtrlWork | drivers/net/ethernet/micrel/ks8851.c:1123 | The work makes a single write, to RXCR1, and that write turns the receive process off. |
| RxFilter.ProgramFilter | drivers/net/ethernet/micrel/ks8851.c:775-781 | The stored settings are written as the four hash words in order, then RXCR2, then RXCR1 last. |
| RxFilter.ProgramFilterStores | drivers/net/ethernet/micrel/ks8851.c:775-781 | Applied to any register file, the writes leave MAHTR0-3, RXCR2 and RXCR1 holding the stored settings and change no other register. Just before the RXCR1 write, the hash table and RXCR2 are in place and RXCR1 is unchanged. |
| RxFilter.RxCtrlWorkStopsReceive | drivers/net/ethernet/micrel/ks8851.c:1123 | Applied to any register file, the work leaves RXCR1 with receive off and changes no other register. |
| Ethtool.SetEeprom | drivers/net/ethernet/micrel/ks8851.c:1338-1365 | The result is -EINVAL exactly for a length other than 1 or the wrong magic, and -ENOENT exactly when the EEPROM cannot be claimed. Otherwise the word holding the offset is written with that byte replaced and its other byte kept. |
| Ethtool.MergeByteSame | drivers/net/ethernet/micrel/ks8851.c:1354-1360 | Writing back the byte already stored leaves the word unchanged. |
| Ethtool.PhyReg | drivers/net/ethernet/micrel/ks8851.c:1424-1442 | An MII register has a chip register exactly when it is one of BMCR through LPA. |
| Ethtool.PhyRegRoundTrip | drivers/net/ethernet/micrel/ks8851.c:1426-1439 | Distinct MII registers map to distinct chip registers, so the map can be undone. |
| Ethtool.PhyReadReg | drivers/net/ethernet/micrel/ks8851.c:1465-1473 | An unmapped register reads as 0 with no bus access. A mapped one makes one read of its chip register and returns the reply. |
| RxFindings.CappedQueueAsWritten | drivers/net/ethernet/micrel/ks8851.c:653-671 | Three 4095-byte frames with a 12288-byte capped read: the walk as written delivers two frames, then swaps past the end of the buffer. |
| RxFindings.CappedQueueCorrected | drivers/net/ethernet/micrel/ks8851.c:653-671 | The corrected walk delivers the same two frames and stops at the cap. |
| RxFindings.UncappedShortAsWritten | drivers/net/ethernet/micrel/ks8851.c:650-671 | An 8-byte estimate with an 8-byte frame: the walk as written starts no recovery and swaps past the buffer. |
| RxFindings.UncappedShortCorrected | drivers/net/ethernet/micrel/ks8851.c:650-671 | The corrected walk reads the frame's missing word and delivers the frame. |
| RxFindings.AsWrittenRecoveryNeverCompletes | drivers/net/ethernet/micrel/ks8851.c:660-664 | From the start of any buffer, the recovery as written never completes. Its copy from the frame start always runs past the buffer end. |
| RxFindings.ShortBufferAsWritten | drivers/net/ethernet/micrel/ks8851.c:653-664 | An 8-byte estimate with a 16-byte frame: the recovery copy as written runs past the buffer. |
| RxFindings.ShortBufferCorrected | drivers/net/ethernet/micrel/ks8851.c:653-668 | The corrected recovery reads the whole missing frame and delivers it. |
| RxFindings.ZeroLengthAsWritten | drivers/net/ethernet/micrel/ks8851.c:650-662 | A zero envelope length wraps `rxlen - 4`, and the walk enters the recovery branch. Its 8-byte copy into the zero-length recovery buffer (line 660) overruns before the follow-up read of 2^32 - 12 bytes it computes (line 662) is issued. |
| RxFindings.TinyLengthAsWritten | drivers/net/ethernet/micrel/ks8851.c:650-675 | An envelope length of 1 to 3 hands an empty frame to the stack. |
| RxFindings.RuntCorrected | drivers/net/ethernet/micrel/ks8851.c:650 | The corrected walk stops at an envelope length below 4 and delivers nothing. |

## Left out

- SPI transport. `spi_sync`, message setup and transfer errors are not modelled. Transfers are the `Action` log, and what the chip returns is an input. A failed transfer is treated as if it had returned those inputs.
- `ks8851_rdfifo`. It becomes the `ReadRxFifo` action, and its data comes from the FIFO input.
- Locks, work queues and scheduling. Each operation is one atomic function of its inputs. The mutex and the state spinlock are not modelled, and neither is the race between `start_xmit` and the interrupt's update of `tx_space`.
- The network stack. This covers `netdev_alloc_skb`, `eth_type_trans`, `netif_rx_ni`, queue stop/wake and timestamps. Delivery is the list of frames, and wake/stop are flags.
- `ether_crc` is not part of this model. Each multicast address is given by its 32-bit CRC.
- `mii_check_link` is recorded as a flag only.
- The 93CX6 EEPROM protocol (`eeprom_93cx6_*`, claim/release) is not part of this model. The stored word is an input, and claiming is a boolean.
- Probe, attach, open/stop, reset, suspend and the remaining ethtool/MII operations are outside the modelled core.
- Ethtool.SetEeprom: takes the offset as a natural number. The source's `int` offset could be negative, and that case is not modelled.
- RegAccess.SetPowerMode: requires the mode to fit the PM field, as every caller's does. The source would OR any bits in.
- Tx.Pack: requires every frame to be shorter than 2048 bytes (`Sendable`). Larger frames are refused by the network stack's MTU before they reach the driver, and the 24 KiB DMA buffer bound relies on it.
- Tx.WrPkts3: requires every queued frame to be `Sendable`, for the same reason.
- Tx.Batches: takes one allocation outcome per `wrpkts3` call and stops when they run out. With allocations that keep failing, the source's `tx_work` loop does not terminate, and that endless loop is not modelled.
- RxPipeline.RxPktsAsWritten / RxPktsAsWrittenShape: a run is cut off at its first access outside a buffer, because what C does after such an access is undefined. The rest of the run is not logged, including the RRXEF release at ks8851.c:693 that the code still reaches.
- RxPipeline.RxPktsAsWrittenShape: requires the RRXEF bit to be clear in the cached RXQCR. The cached value set at ks8851.c:983-985 never has it.
- Irq.HandleIrq: runs the corrected receive pipeline `RxPkts`. The as-written pipeline differs wherever its walk would touch memory outside a buffer (see Findings), and on a failed recovery allocation.
- The memory leak of `buf` on the recovery allocation failure at ks8851.c:659 is not modelled, since memory is not modelled. The missing queue release on that path is modelled (Findings, third row).

## Findings

| source | as written | input that shows it | evidently intended | confidence | as-written member | corrected member |
|---|---|---|---|---|---|---|
| drivers/net/ethernet/micrel/ks8851.c:653-671 | The overflow test `totallen > rxfifosize` counts only delivered bytes, not the envelope and CRC words. A frame whose words are not all in the buffer is then swapped past its end; a frame cut off by the 12 KiB cap is one case. | Three queued 4095-byte frames. The estimate is capped at 12288. At the third frame `totallen` is 12276, and its words run past the buffer. | Stop at the cap before touching a frame that is not entirely in the buffer. | not executed | RxFindings.CappedQueueAsWritten | RxFindings.CappedQueueCorrected |
| drivers/net/ethernet/micrel/ks8851.c:660-664 | The recovery copies `rxalign - (totallen - rxfifosize)` bytes from the frame start. Because the walk has also consumed envelope words, that always reaches past the end of the buffer. | Estimate 8 bytes (the probe says length 0). The buffer holds the dummy word and an envelope of length 16. | Copy only the bytes of the frame that are in the buffer, and read exactly the missing ones. | not executed | RxFindings.ShortBufferAsWritten | RxFindings.ShortBufferCorrected |
| drivers/net/ethernet/micrel/ks8851.c:657-659 | When the recovery buffer cannot be allocated, the function returns with DMA started and without the RRXEF release at line 693. | One queued frame, the probe reports length 0, the envelope says 16, and the recovery allocation fails. | Release the receive queue (and free `buf`) on that path too. | not executed | RxPipeline.RecoveryAllocFailureReachable | RxPipeline.CorrectedReleasesOnAllocFailure |
| drivers/net/ethernet/micrel/ks8851.c:650 | `rxlen - 4` is unsigned, so an envelope length below 4 wraps to almost 4 GiB. | An envelope of length 0 with an 8-byte buffer. | Treat a length below the CRC size as a runt and stop. | not executed | RxFindings.ZeroLengthAsWritten | RxFindings.RuntCorrected |
| drivers/net/ethernet/micrel/ks8851.c:650-671 | The same overflow test without the cap: when the probe under-reports a frame, `totallen` stays within the estimate, so no recovery is started and the swap runs past the buffer. | Estimate 8 bytes (the probe says length 0). The buffer holds the dummy word and an envelope of length 8. | Check the frame against the buffer and read its missing words. | not executed | RxFindings.UncappedShortAsWritten | RxFindings.UncappedShortCorrected |

=== FILE: bits.dfy ===
/**
  Byte-order and alignment arithmetic shared by the whole driver model.

  The host is little-endian: `cpu_to_le16` is a truncation to 16 bits and
  `htonl`/`htons` reverse the bytes of a 32-bit/16-bit value. A 32-bit SPI
  word is shifted out most significant byte first, so the byte that travels
  first on the wire is the top byte of the word.
*/
module Bits {

  const TWO_32: nat := 0x1_0000_0000

  type u8 = x: nat | x < 0x100

  type u16 = x: nat | x < 0x1_0000

  /** The `i`-th least significant byte of `x`. */
  function Byte(x: bv32, i: nat): bv8
    requires i < 4
  {
    if i == 0 then (x & 0xFF) as bv8
    else if i == 1 then ((x >> 8) & 0xFF) as bv8
    else if i == 2 then ((x >> 16) & 0xFF) as bv8
    else (x >> 24) as bv8
  }

  /** `htonl` on a little-endian host. */
  function Bswap32(x: bv32): (r: bv32)
    ensures Byte(r, 0) == Byte(x, 3) && Byte(r, 1) == Byte(x, 2)
    ensures Byte(r, 2) == Byte(x, 1) && Byte(r, 3) == Byte(x, 0)
  {
    (x << 24) | ((x << 8) & 0x00FF_0000) | ((x >> 8) & 0x0000_FF00) | (x >> 24)
  }

  /** `htons` on a little-endian host. */
  function Bswap16(x: bv16): (r: bv16)
    ensures (r & 0xFF) == (x >> 8) && (r >> 8) == (x & 0xFF)
  {
    (x << 8) | (x >> 8)
  }

  lemma Bswap32Involutive(x: bv32)
    ensures Bswap32(Bswap32(x)) == x
  {
  }

  /** A word's bytes in the order a 32-bit SPI transfer moves them. */
  function WireBytes(x: bv32): (r: seq<bv8>)
    ensures |r| == 4
  {
    [Byte(x, 3), Byte(x, 2), Byte(x, 1), Byte(x, 0)]
  }

  /** Little-endian bytes of a 16-bit value, as `cpu_to_le16` lays it out in memory. */
  function Le16Bytes(x: bv16): (r: seq<bv8>)
    ensures |r| == 2 && (r[0] as bv16) | ((r[1] as bv16) << 8) == x
  {
    [(x & 0xFF) as bv8, (x >> 8) as bv8]
  }

  /** `ALIGN(n, 4)` on unbounded naturals. */
  function Align4(n: nat): (r: nat)
    ensures r % 4 == 0 && n <= r < n + 4
  {
    (n + 3) / 4 * 4
  }

  /** `ALIGN(x, 4)` evaluated in C `unsigned` arithmetic, where `x + 3` wraps. */
  function AlignU32(x: nat): (r: nat)
    requires x < TWO_32
    ensures r % 4 == 0 && r < TWO_32
    ensures x <= TWO_32 - 4 ==> r == Align4(x)
    ensures x > TWO_32 - 4 ==> r == 0
  {
    if x <= TWO_32 - 4 then Align4(x) else 0
  }

  /** `a - b` in C `unsigned` arithmetic. */
  function SubU32(a: nat, b: nat): (r: nat)
    requires a < TWO_32 && b < TWO_32
    ensures r < TWO_32
    ensures b <= a ==> r == a - b
    ensures b > a ==> r == TWO_32 + a - b
  {
    if b <= a then a - b else TWO_32 + a - b
  }

  /** `a + b` in C `unsigned` arithmetic. */
  function AddU32(a: nat, b: nat): (r: nat)
    requires a < TWO_32 && b < TWO_32
    ensures r < TWO_32
    ensures a + b < TWO_32 ==> r == a + b
    ensures a + b >= TWO_32 ==> r == a + b - TWO_32
  {
    if a + b < TWO_32 then a + b else a + b - TWO_32
  }

  /** Adding whole words keeps word alignment. */
  lemma AlignedPlusWords(a: nat, k: nat)
    requires a % 4 == 0
    ensures (a + 4 * k) % 4 == 0
  {
    assert a + 4 * k == (a / 4 + k) * 4;
  }

  /** The sum of two word-aligned sizes is word-aligned. */
  lemma AlignedSum(a: nat, b: nat)
    requires a % 4 == 0 && b % 4 == 0
    ensures (a + b) % 4 == 0
  {
    assert a + b == (a / 4 + b / 4) * 4;
  }

  /** Wrapping addition keeps word alignment, because 2^32 is a multiple of 4. */
  lemma AddU32Aligned(a: nat, b: nat)
    requires a < TWO_32 && b < TWO_32 && a % 4 == 0 && b % 4 == 0
    ensures AddU32(a, b) % 4 == 0
  {
    var k: nat := if a + b >= TWO_32 then a / 4 + b / 4 - TWO_32 / 4 else a / 4 + b / 4;
    assert AddU32(a, b) == 4 * k;
  }
}

=== FILE: ethtool.dfy ===
/**
  Two small pieces of the ethtool and MII glue: the byte write into the
  16-bit EEPROM words (`ks8851_set_eeprom`) and the map from MII register
  numbers to the chip's PHY registers (`ks8851_phy_reg`, `ks8851_phy_read`).

  The bit-banged EEPROM protocol is not part of this model: the word read
  back from the EEPROM is an input, and the outcome names the word written.
*/
module Ethtool {
  import opened Regs

  const KS_EEPROM_MAGIC: nat := 0x8851

  /** The outcome of `ks8851_set_eeprom`. */
  datatype EepromWrite =
    | Invalid                               // -EINVAL: not a one-byte write, or the wrong magic
    | NoEntry                               // -ENOENT: the EEPROM could not be claimed
    | Written(addr: nat, value: bv16)       // the word written back at word address `addr`

  /** The byte of an EEPROM word that byte offset `offset` selects: the high byte for odd offsets. */
  function ByteAt(w: bv16, offset: nat): bv8 {
    if offset % 2 == 1 then (w >> 8) as bv8 else (w & 0xff) as bv8
  }

  /** The word after byte `data` is stored at byte offset `offset`. */
  function MergeByte(w: bv16, offset: nat, data: bv8): (r: bv16)
    ensures ByteAt(r, offset) == data
    ensures ByteAt(r, offset + 1) == ByteAt(w, offset + 1)
  {
    if offset % 2 == 1 then (w & 0xff) | ((data as bv16) << 8)
    else (w & 0xff00) | data as bv16
  }

  /**
    `ks8851_set_eeprom`: only one-byte writes with the right magic are
    accepted; the word holding the byte is read, the byte replaced and the
    word written back at the same word address.
  */
  function SetEeprom(offset: nat, len: int, magic: nat, claimed: bool, stored: bv16, data: bv8): (r: EepromWrite)
    ensures r == Invalid <==> len != 1 || magic != KS_EEPROM_MAGIC
    ensures r == NoEntry <==> len == 1 && magic == KS_EEPROM_MAGIC && !claimed
    ensures r.Written? ==>
              && r.addr * 2 <= offset < r.addr * 2 + 2
              && ByteAt(r.value, offset) == data
              && ByteAt(r.value, offset + 1) == ByteAt(stored, offset + 1)
  {
    if len != 1 then Invalid
    else if magic != KS_EEPROM_MAGIC then Invalid
    else if !claimed then NoEntry
    else Written(offset / 2, MergeByte(stored, offset, data))
  }

  /** Writing back the byte that is already there leaves the word as it was. */
  lemma {:induction false} MergeByteSame(w: bv16, offset: nat)
    ensures MergeByte(w, offset, ByteAt(w, offset)) == w
  {
    if offset % 2 == 1 {
      assert ((((w >> 8) as bv8) as bv16) << 8) == w & 0xff00;
    } else {
      assert (((w & 0xff) as bv8) as bv16) == w & 0xff;
    }
  }

  // MII register numbers (linux/mii.h)
  const MII_BMCR: int := 0x00
  const MII_BMSR: int := 0x01
  const MII_PHYSID1: int := 0x02
  const MII_PHYSID2: int := 0x03
  const MII_ADVERTISE: int := 0x04
  const MII_LPA: int := 0x05

  /** `ks8851_phy_reg`: the chip register behind an MII register, 0 when there is none. */
  function PhyReg(reg: int): (ks: nat)
    ensures ks != 0 <==> MII_BMCR <= reg <= MII_LPA
  {
    if reg == MII_BMCR then KS_P1MBCR
    else if reg == MII_BMSR then KS_P1MBSR
    else if reg == MII_PHYSID1 then KS_PHY1ILR
    else if reg == MII_PHYSID2 then KS_PHY1IHR
    else if reg == MII_ADVERTISE then KS_P1ANAR
    else if reg == MII_LPA then KS_P1ANLPR
    else 0
  }

  /** The MII register a chip PHY register stands for: the inverse of `PhyReg` on the mapped registers. */
  function MiiReg(ks: nat): int {
    if ks == KS_P1MBCR then MII_BMCR
    else if ks == KS_P1MBSR then MII_BMSR
    else if ks == KS_PHY1ILR then MII_PHYSID1
    else if ks == KS_PHY1IHR then MII_PHYSID2
    else if ks == KS_P1ANAR then MII_ADVERTISE
    else if ks == KS_P1ANLPR then MII_LPA
    else -1
  }

  /** Distinct MII registers map to distinct chip registers, so the map can be undone. */
  lemma PhyRegRoundTrip(reg: int)
    requires PhyReg(reg) != 0
    ensures MiiReg(PhyReg(reg)) == reg
  {
  }

  /** The bus exchanges of `ks8851_phy_read` and the value it returns. */
  datatype PhyRead = PhyRead(actions: seq<Action>, value: bv16)

  /** `ks8851_phy_read`: unmapped registers read as 0 with no bus access; the others read the chip register. */
  function PhyReadReg(reg: int, reply: bv16): (r: PhyRead)
    ensures PhyReg(reg) == 0 ==> r == PhyRead([], 0)
    ensures PhyReg(reg) != 0 ==> r.actions == [Read16(PhyReg(reg))] && r.value == reply
  {
    var ks := PhyReg(reg);
    if ks == 0 then PhyRead([], 0) else PhyRead([Read16(ks)], reply)
  }
}

=== FILE: irq.dfy ===
/**
  `ks8851_irq`: read the interrupt status, acknowledge the events the
  driver deals with, then run the receive pipeline and reprogram the
  receive filter as the status asks.

  The values the chip returns (the status word, KS_PMECR, KS_TXMIR) and
  everything the receive pipeline reads are inputs. The link check the
  handler runs after unlocking (`mii_check_link`) is recorded as a flag.
*/
module Irq {
  import opened Bits
  import opened Regs
  import opened RegAccess
  import opened RxDecode
  import opened RxPipeline
  import opened RxFilter

  /** The events the handler acknowledges: link change, link wake-up, receive stopped, transmit done, receive, SPI bus error. */
  const IRQ_HANDLED: bv16 := IRQ_LCI | IRQ_LDI | IRQ_RXPSI | IRQ_TXI | IRQ_RXI | IRQ_SPIBEI

  /** What the chip returns during one run of the handler. */
  datatype IrqInput = IrqInput(status: bv16, pmecr: bv16, txmir: bv16, rx: RxInput)

  /**
    The driver state the handler reads and updates. `txSpace` is the same
    `ks->tx_space` field as `Tx.TxState.txSpace`: the handler refreshes it
    from TXMIR, and the transmit path spends it.
  */
  datatype NetState = NetState(txSpace: u16, rxctrl: RxCtrl, rcRxqcr: bv16, rxOverErrors: nat)

  /**
    One run of the handler: the bus exchanges, the value written to
    KS_ISR, the new state, the receive run when there was one, whether
    the transmit queue was woken and whether the link is checked.
  */
  datatype IrqRun = IrqRun(actions: seq<Action>, handled: bv16, state: NetState,
                           rx: seq<RxRun>, wake: bool, checkLink: bool)

  function Has(status: bv16, bit: bv16): bool {
    status & bit != 0
  }

  /** The acknowledge mask as the handler builds it, one event at a time. */
  function Handled(status: bv16): (h: bv16)
    ensures h == status & IRQ_HANDLED
    ensures h & IRQ_RXOI == 0 && h & IRQ_TXPSI == 0
  {
    var h0: bv16 := 0;
    var h1 := if Has(status, IRQ_LCI) then h0 | IRQ_LCI else h0;
    var h2 := if Has(status, IRQ_LDI) then h1 | IRQ_LDI else h1;
    var h3 := if Has(status, IRQ_RXPSI) then h2 | IRQ_RXPSI else h2;
    var h4 := if Has(status, IRQ_TXI) then h3 | IRQ_TXI else h3;
    var h5 := if Has(status, IRQ_RXI) then h4 | IRQ_RXI else h4;
    if Has(status, IRQ_SPIBEI) then h5 | IRQ_SPIBEI else h5
  }

  /** The exchanges before the acknowledge: the status read, the link wake-up update, the transmit space read. */
  function PreAck(ii: IrqInput): (p: seq<Action>)
    ensures |p| == AckIndex(ii.status) && p[0] == Read16(KS_ISR)
    ensures forall j :: 0 <= j < |p| ==> !IsFifoAccess(p[j]) && !(p[j].Write16? && p[j].reg == KS_ISR)
  {
    [Read16(KS_ISR)]
    + (if Has(ii.status, IRQ_LDI) then [Read16(KS_PMECR), Write16(KS_PMECR, LinkWakeValue(ii.pmecr))] else [])
    + (if Has(ii.status, IRQ_TXI) then [Read16(KS_TXMIR)] else [])
  }

  /** The receive run, when the status reports received frames. */
  function RxWork(s: NetState, ii: IrqInput): (rx: seq<RxRun>)
    ensures |rx| == (if Has(ii.status, IRQ_RXI) then 1 else 0)
  {
    if Has(ii.status, IRQ_RXI) then [RxPkts(ii.rx, s.rcRxqcr)] else []
  }

  /** The filter writes, when the status reports that the receive queue stopped. */
  function FilterWork(s: NetState, ii: IrqInput): (acts: seq<Action>)
    requires |s.rxctrl.mchash| == 4
  {
    if Has(ii.status, IRQ_RXPSI) then ProgramFilter(s.rxctrl) else []
  }

  /**
    The bus exchanges of the handler, in order: everything before the
    acknowledge, the acknowledge, the receive run, the filter writes.
  */
  function IrqActions(s: NetState, ii: IrqInput): (acts: seq<Action>)
    requires |s.rxctrl.mchash| == 4
    ensures |acts| > AckIndex(ii.status) && acts[0] == Read16(KS_ISR)
    ensures Has(ii.status, IRQ_RXPSI) ==>
              |acts| >= 6 && acts[|acts| - 6..] == ProgramFilter(s.rxctrl)
  {
    var rx := RxWork(s, ii);
    var pre := PreAck(ii);
    var acts := pre + [Write16(KS_ISR, Handled(ii.status))] + (if rx == [] then [] else rx[0].actions) + FilterWork(s, ii);
    assert acts[0] == pre[0];
    acts
  }

  /** The state after the handler: the transmit space the chip reports, one more overrun when RXOI is set. */
  function IrqState(s: NetState, ii: IrqInput): (t: NetState)
    ensures t.txSpace == if Has(ii.status, IRQ_TXI) then ii.txmir as nat else s.txSpace
    ensures t.rxOverErrors == s.rxOverErrors + if Has(ii.status, IRQ_RXOI) then 1 else 0
    ensures t.rxctrl == s.rxctrl && t.rcRxqcr == s.rcRxqcr
  {
    var txSpace: u16 := if Has(ii.status, IRQ_TXI) then ii.txmir as nat else s.txSpace;
    var overs := if Has(ii.status, IRQ_RXOI) then s.rxOverErrors + 1 else s.rxOverErrors;
    s.(txSpace := txSpace, rxOverErrors := overs)
  }

  function HandleIrq(s: NetState, ii: IrqInput): (r: IrqRun)
    requires |s.rxctrl.mchash| == 4
    ensures r.handled == ii.status & IRQ_HANDLED
    ensures r.wake <==> Has(ii.status, IRQ_TXI)
    ensures r.checkLink <==> Has(ii.status, IRQ_LCI)
  {
    IrqRun(IrqActions(s, ii), Handled(ii.status), IrqState(s, ii), RxWork(s, ii),
           Has(ii.status, IRQ_TXI), Has(ii.status, IRQ_LCI))
  }

  /** No exchange of `acts` writes KS_ISR. */
  predicate NoIsrWrite(acts: seq<Action>) {
    forall j :: 0 <= j < |acts| ==> !(acts[j].Write16? && acts[j].reg == KS_ISR)
  }

  /** The receive pipeline writes only the receive queue registers, never KS_ISR, and never the transmit FIFO. */
  lemma RxPktsNoIsrWrite(ri: RxInput, rxqcr: bv16)
    ensures NoIsrWrite(RxPkts(ri, rxqcr).actions)
    ensures forall j :: 0 <= j < |RxPkts(ri, rxqcr).actions| ==> !RxPkts(ri, rxqcr).actions[j].WriteTxFifo?
  {
    var r := RxPkts(ri, rxqcr);
    forall j | 0 <= j < |r.actions|
      ensures !r.actions[j].WriteTxFifo?
      ensures r.actions[j].Write16? ==> r.actions[j].reg == KS_RXQCR || r.actions[j].reg == KS_RXFDPR
    {
    }
  }

  lemma NoIsrWriteAppend(a: seq<Action>, b: seq<Action>)
    requires NoIsrWrite(a) && NoIsrWrite(b)
    ensures NoIsrWrite(a + b)
  {
    forall j | 0 <= j < |a + b|
      ensures !((a + b)[j].Write16? && (a + b)[j].reg == KS_ISR)
    {
      if j >= |a| {
        assert (a + b)[j] == b[j - |a|];
      }
    }
  }

  /** The number of exchanges before the acknowledge. */
  function AckIndex(status: bv16): nat {
    1 + (if Has(status, IRQ_LDI) then 2 else 0) + (if Has(status, IRQ_TXI) then 1 else 0)
  }

  /** Where the acknowledge sits in `pre + [ack] + rx + filter`, and that it is the only KS_ISR write there. */
  lemma AckLayout(pre: seq<Action>, ack: Action, rx: seq<Action>, filter: seq<Action>)
    requires NoIsrWrite(pre) && NoIsrWrite(rx) && NoIsrWrite(filter)
    ensures var acts := pre + [ack] + rx + filter;
            && acts[|pre|] == ack
            && acts[..|pre|] == pre
            && acts[|pre| + 1..|pre| + 1 + |rx|] == rx
            && forall j :: 0 <= j < |acts| && j != |pre| ==> !(acts[j].Write16? && acts[j].reg == KS_ISR)
  {
    var acts := pre + [ack] + rx + filter;
    forall j | 0 <= j < |acts| && j != |pre|
      ensures !(acts[j].Write16? && acts[j].reg == KS_ISR)
    {
      if j < |pre| {
        assert acts[j] == pre[j];
      } else if j < |pre| + 1 + |rx| {
        assert acts[j] == rx[j - |pre| - 1];
      } else {
        assert acts[j] == filter[j - |pre| - 1 - |rx|];
      }
    }
  }

  lemma FilterWorkNoIsrWrite(s: NetState, ii: IrqInput)
    requires |s.rxctrl.mchash| == 4
    ensures NoIsrWrite(FilterWork(s, ii))
  {
    if Has(ii.status, IRQ_RXPSI) {
      assert forall j :: 0 <= j < 4 ==> KS_MAHTR0 + 2 * j != KS_ISR;
    }
  }

  lemma RxWorkNoIsrWrite(s: NetState, ii: IrqInput)
    ensures var rx := RxWork(s, ii); rx != [] ==> NoIsrWrite(rx[0].actions)
  {
    if Has(ii.status, IRQ_RXI) {
      RxPktsNoIsrWrite(ii.rx, s.rcRxqcr);
    }
  }

  /**
    The handler acknowledges before it touches any FIFO: the KS_ISR write
    carries exactly the handled events, it is the only KS_ISR write of the
    run, no FIFO is accessed before it, and the receive run (when RXI is
    set) follows it directly.
  */
  lemma {:induction false} AckBeforeReceive(s: NetState, ii: IrqInput)
    requires |s.rxctrl.mchash| == 4
    ensures var r := HandleIrq(s, ii);
            var k := AckIndex(ii.status);
            && k < |r.actions|
            && r.actions[k] == Write16(KS_ISR, r.handled)
            && (forall j :: 0 <= j < k ==> !IsFifoAccess(r.actions[j]))
            && (forall j :: 0 <= j < |r.actions| && j != k ==> !(r.actions[j].Write16? && r.actions[j].reg == KS_ISR))
            && (Has(ii.status, IRQ_RXI) ==>
                  r.actions[k + 1..k + 1 + |r.rx[0].actions|] == r.rx[0].actions)
  {
    var rx := RxWork(s, ii);
    var pre := PreAck(ii);
    var rxActs := if rx == [] then [] else rx[0].actions;
    RxWorkNoIsrWrite(s, ii);
    FilterWorkNoIsrWrite(s, ii);
    AckLayout(pre, Write16(KS_ISR, Handled(ii.status)), rxActs, FilterWork(s, ii));
  }

  /**
    The chip clears the status bits written as 1. After the acknowledge,
    the events the handler deals with are all cleared, and an overrun or
    a transmit-stopped event stays pending.
  */
  function AckedStatus(status: bv16, written: bv16): bv16 {
    status & !written
  }

  lemma AckLeavesOnlyUnhandled(s: NetState, ii: IrqInput)
    requires |s.rxctrl.mchash| == 4
    ensures var left := AckedStatus(ii.status, HandleIrq(s, ii).handled);
            && left & IRQ_HANDLED == 0
            && left & IRQ_RXOI == ii.status & IRQ_RXOI
            && left & IRQ_TXPSI == ii.status & IRQ_TXPSI
  {
  }

  /** With nothing to do the handler reads the status, writes 0 back, and changes nothing. */
  lemma QuietInterrupt(s: NetState, ii: IrqInput)
    requires |s.rxctrl.mchash| == 4 && ii.status == 0
    ensures HandleIrq(s, ii) == IrqRun([Read16(KS_ISR), Write16(KS_ISR, 0)], 0, s, [], false, false)
  {
  }
}

=== FILE: regaccess.dfy ===
/**
  The register access protocol: the 16-bit command word that opens every
  register exchange, the byte-lane masks of the 8- and 16-bit accessors,
  the bytes those accessors put on the bus, the 32-bit fast-path read,
  and the two read-modify-write updates of the power management register.
*/
module RegAccess {
  import opened Bits
  import opened Regs

  /** `BYTE_EN(x)`: the byte-enable mask sits two bits up. */
  function ByteEnable(mask: bv16): bv16 {
    mask << 2
  }

  /**
    `MK_OP(byteen, reg)` as the bus sees it: the C macro works in
    `unsigned`, and `cpu_to_le16` keeps the low 16 bits, which is what
    16-bit arithmetic computes. Register bits 5-0 go ten bits up (bits 7-6
    fall off the top), register bits 7-6 come down to bits 1-0.
  */
  function MkOp(byteEn: bv16, reg: bv16): bv16 {
    ByteEnable(byteEn) | (reg << 10) | (reg >> 6)
  }

  /** The 16-bit command word: `cpu_to_le16(MK_OP(byteen, reg) | opcode)`. */
  function CommandWord(byteEn: bv16, reg: bv16, opcode: bv16): bv16 {
    MkOp(byteEn, reg) | opcode
  }

  datatype Command = Command(opcode: bv16, byteEnable: bv16, reg: bv16)

  /** How the chip reads a command word back into its three fields. */
  function DecodeCommand(w: bv16): (c: Command)
    ensures c.opcode & 0x3F == 0 && c.byteEnable < 16 && c.reg < 0x100
  {
    Command(w & 0xC0, (w >> 2) & 0xF, ((w >> 10) & 0x3F) | ((w & 0x3) << 6))
  }

  predicate IsOpcode(opcode: bv16) {
    opcode == 0x00 || opcode == 0x40 || opcode == 0x80 || opcode == 0xC0
  }

  /**
    Every field of a command word is recoverable: decoding the word built
    from an opcode, a 4-lane mask and a register number gives them back.
  */
  lemma CommandRoundTrip(byteEn: bv16, reg: bv16, opcode: bv16)
    requires byteEn < 16 && reg < 0x100 && IsOpcode(opcode)
    ensures DecodeCommand(CommandWord(byteEn, reg, opcode)) == Command(opcode, byteEn, reg)
  {
  }

  /**
    Conversely every word whose bits 9-8 are clear is the command word of
    its own decoded fields: the encoding is a bijection onto those words.
  */
  lemma CommandWordsAreEncodings(w: bv16)
    requires w & 0x300 == 0
    ensures var c := DecodeCommand(w); CommandWord(c.byteEnable, c.reg, c.opcode) == w
  {
  }

  /**
    The register number as the 16-bit quantity the macros shift: the
    same number, below 0x100, whose low two bits are its byte offset in
    the word (`reg & 3`).
  */
  function RegBits(reg: nat): (r: bv16)
    requires IsRegister(reg)
    ensures r < 0x100 && r as int == reg && (r & 3) as int == reg % 4
  {
    var hi := reg / 16;
    var lo := reg % 16;
    assert reg == 16 * hi + lo && hi < 16 && lo < 16;
    JoinNibbles(hi, lo);
    ((hi as bv16) << 4) | (lo as bv16)
  }

  /** Two nibbles side by side make the byte `16 * hi + lo`, whose low two bits are those of `lo`. */
  lemma JoinNibbles(hi: nat, lo: nat)
    requires hi < 16 && lo < 16
    ensures var r := ((hi as bv16) << 4) | (lo as bv16);
            r < 0x100 && r as int == 16 * hi + lo && (r & 3) as int == lo % 4
  {
    Nibble(hi);
    Nibble(lo);
  }

  /** A number below 16 converts to a 16-bit word and back unchanged, and keeps its low two bits. */
  lemma Nibble(n: nat)
    requires n < 16
    ensures (n as bv16) as int == n && ((n as bv16) & 3) as int == n % 4
  {
    if n == 0 {}
    else if n == 1 {}
    else if n == 2 {}
    else if n == 3 {}
    else if n == 4 {}
    else if n == 5 {}
    else if n == 6 {}
    else if n == 7 {}
    else if n == 8 {}
    else if n == 9 {}
    else if n == 10 {}
    else if n == 11 {}
    else if n == 12 {}
    else if n == 13 {}
    else if n == 14 {}
    else {}
  }

  /** Lane `lane` (0..3) of a byte-enable mask is active. */
  predicate LaneOn(mask: bv16, lane: nat)
    requires lane < 4
  {
    (mask >> lane) & 1 == 1
  }

  /** `1 << (reg & 3)`: the byte-enable mask of an 8-bit access enables exactly the addressed lane. */
  function Lane8(reg: nat): (m: bv16)
    requires IsRegister(reg)
    ensures m < 16
    ensures forall lane :: 0 <= lane < 4 ==> (LaneOn(m, lane) <==> lane == reg % 4)
  {
    var sh := (RegBits(reg) & 3) as int;
    Lane8Bits(sh, (1 as bv16) << sh);
    (1 as bv16) << sh
  }

  lemma Lane8Bits(sh: nat, m: bv16)
    requires sh < 4 && m == (1 as bv16) << sh
    ensures m < 16
    ensures forall lane :: 0 <= lane < 4 ==> (LaneOn(m, lane) <==> lane == sh)
  {
  }

  /**
    `reg & 2 ? 0xC : 0x3`: the byte-enable mask of a 16-bit access enables
    the two lanes of the halfword holding the register.
  */
  function Lane16(reg: nat): (m: bv16)
    requires IsRegister(reg)
    ensures m < 16
    ensures forall lane :: 0 <= lane < 4 ==> (LaneOn(m, lane) <==> lane / 2 == (reg % 4) / 2)
  {
    var r := RegBits(reg);
    Lane16Bits(r);
    if r & 2 != 0 then 0xC else 0x3
  }

  lemma Lane16Bits(r: bv16)
    ensures (r & 2 != 0) <==> (r & 3) as int >= 2
    ensures forall lane :: 0 <= lane < 4 ==> (LaneOn(0xC, lane) <==> lane >= 2)
    ensures forall lane :: 0 <= lane < 4 ==> (LaneOn(0x3, lane) <==> lane < 2)
  {
  }

  /** The byte lane of an 8-bit access lies inside the lane pair of its halfword. */
  lemma Lane8WithinLane16(reg: nat)
    requires IsRegister(reg)
    ensures Lane8(reg) & Lane16(reg) == Lane8(reg)
  {
    var m8 := Lane8(reg);
    var m16 := Lane16(reg);
    LaneMaskSubset(m8, m16);
  }

  lemma LaneMaskSubset(a: bv16, b: bv16)
    requires a < 16 && b < 16
    requires forall lane :: 0 <= lane < 4 ==> LaneOn(a, lane) ==> LaneOn(b, lane)
    ensures a & b == a
  {
    assert LaneOn(a, 0) ==> LaneOn(b, 0);
    assert LaneOn(a, 1) ==> LaneOn(b, 1);
    assert LaneOn(a, 2) ==> LaneOn(b, 2);
    assert LaneOn(a, 3) ==> LaneOn(b, 3);
  }

  /** Command words of `ks8851_wrreg16`, `ks8851_rdreg16`, `ks8851_wrreg8` and `ks8851_rdreg8`. */
  function Write16Command(reg: nat): (w: bv16)
    requires IsRegister(reg)
    ensures DecodeCommand(w) == Command(KS_SPIOP_WR, Lane16(reg), RegBits(reg))
  {
    CommandRoundTrip(Lane16(reg), RegBits(reg), KS_SPIOP_WR);
    CommandWord(Lane16(reg), RegBits(reg), KS_SPIOP_WR)
  }

  function Read16Command(reg: nat): (w: bv16)
    requires IsRegister(reg)
    ensures DecodeCommand(w) == Command(KS_SPIOP_RD, Lane16(reg), RegBits(reg))
  {
    CommandRoundTrip(Lane16(reg), RegBits(reg), KS_SPIOP_RD);
    CommandWord(Lane16(reg), RegBits(reg), KS_SPIOP_RD)
  }

  function Write8Command(reg: nat): (w: bv16)
    requires IsRegister(reg)
    ensures DecodeCommand(w) == Command(KS_SPIOP_WR, Lane8(reg), RegBits(reg))
  {
    CommandRoundTrip(Lane8(reg), RegBits(reg), KS_SPIOP_WR);
    CommandWord(Lane8(reg), RegBits(reg), KS_SPIOP_WR)
  }

  function Read8Command(reg: nat): (w: bv16)
    requires IsRegister(reg)
    ensures DecodeCommand(w) == Command(KS_SPIOP_RD, Lane8(reg), RegBits(reg))
  {
    CommandRoundTrip(Lane8(reg), RegBits(reg), KS_SPIOP_RD);
    CommandWord(Lane8(reg), RegBits(reg), KS_SPIOP_RD)
  }

  /** The 16-bit value of two bytes taken little-endian. */
  function Le16(lo: bv8, hi: bv8): bv16 {
    (lo as bv16) | ((hi as bv16) << 8)
  }

  /** The four bytes `ks8851_wrreg16` sends: command, then the value, both little-endian. */
  function Write16Frame(reg: nat, value: bv16): (bytes: seq<bv8>)
    requires IsRegister(reg)
    ensures |bytes| == 4
    ensures DecodeCommand(Le16(bytes[0], bytes[1])) == Command(KS_SPIOP_WR, Lane16(reg), RegBits(reg))
    ensures Le16(bytes[2], bytes[3]) == value
  {
    Le16Bytes(Write16Command(reg)) + Le16Bytes(value)
  }

  /**
    The three bytes `ks8851_wrreg8` sends: command, then the value's low
    byte (the second 16-bit slot is filled but only one byte of it goes out).
  */
  function Write8Frame(reg: nat, value: bv16): (bytes: seq<bv8>)
    requires IsRegister(reg)
    ensures |bytes| == 3
    ensures DecodeCommand(Le16(bytes[0], bytes[1])) == Command(KS_SPIOP_WR, Lane8(reg), RegBits(reg))
    ensures bytes[2] as bv16 == value & 0xFF
  {
    (Le16Bytes(Write8Command(reg)) + Le16Bytes(value))[..3]
  }

  /**
    The word `ks8851_32bitrdreg16` shifts out in one 32-bit transfer:
    `htonl(0xffff & (op | KS_SPIOP_RD))`.
  */
  function FastRead16Word(reg: nat): bv32
    requires IsRegister(reg)
  {
    Bswap32(Read16Command(reg) as bv32)
  }

  /** The value `ks8851_32bitrdreg16` returns from the word clocked in: `htons((u16)rxd[0])`. */
  function FastRead16Value(reply: bv32): bv16 {
    Bswap16((reply & 0xFFFF) as bv16)
  }

  /**
    On the wire the 32-bit fast path is the plain 16-bit read: the command
    goes out little-endian followed by two filler bytes, and the value is
    the little-endian pair of bytes that follows the command.
  */
  lemma FastPathMatchesPlainRead(reg: nat, reply: bv32)
    requires IsRegister(reg)
    ensures WireBytes(FastRead16Word(reg)) == Le16Bytes(Read16Command(reg)) + [0, 0]
    ensures FastRead16Value(reply) == Le16(WireBytes(reply)[2], WireBytes(reply)[3])
  {
    FastWordBytes(Read16Command(reg));
    FastReplyBytes(reply);
  }

  lemma FastWordBytes(c: bv16)
    ensures WireBytes(Bswap32(c as bv32)) == Le16Bytes(c) + [0, 0]
  {
    ZeroExtendBytes(c);
  }

  lemma ZeroExtendBytes(c: bv16)
    ensures Byte(c as bv32, 0) == (c & 0xFF) as bv8 && Byte(c as bv32, 1) == (c >> 8) as bv8
    ensures Byte(c as bv32, 2) == 0 && Byte(c as bv32, 3) == 0
  {
  }

  lemma FastReplyBytes(reply: bv32)
    ensures FastRead16Value(reply) == Le16(WireBytes(reply)[2], WireBytes(reply)[3])
  {
    assert WireBytes(reply)[2] == Byte(reply, 1);
    assert WireBytes(reply)[3] == Byte(reply, 0);
  }

  /**
    `ks8851_set_powermode`: the value written back to KS_PMECR after
    reading `pmecr`. The power-mode field takes `mode`, every other bit
    keeps its value.
  */
  function PowerModeValue(pmecr: bv16, mode: bv16): (w: bv16)
    requires mode <= PMECR_PM_MASK
    ensures w & PMECR_PM_MASK == mode
    ensures w & !PMECR_PM_MASK == pmecr & !PMECR_PM_MASK
  {
    (pmecr & !PMECR_PM_MASK) | mode
  }

  /** The exchanges of `ks8851_set_powermode`: read KS_PMECR, write it back with the new mode. */
  function SetPowerMode(pmecr: bv16, mode: bv16): (acts: seq<Action>)
    requires mode <= PMECR_PM_MASK
    ensures |acts| == 2 && acts[0] == Read16(KS_PMECR) && acts[1].Write16? && acts[1].reg == KS_PMECR
    ensures acts[1].value & PMECR_PM_MASK == mode
    ensures acts[1].value & !PMECR_PM_MASK == pmecr & !PMECR_PM_MASK
  {
    [Read16(KS_PMECR), Write16(KS_PMECR, PowerModeValue(pmecr, mode))]
  }

  /**
    The link-down branch of the interrupt handler: the wake-event field of
    KS_PMECR is replaced by "link change", every other bit kept.
  */
  function LinkWakeValue(pmecr: bv16): (w: bv16)
    ensures w & PMECR_WKEVT_MASK == PMECR_WKEVT_LINK
    ensures w & !PMECR_WKEVT_MASK == pmecr & !PMECR_WKEVT_MASK
  {
    (pmecr & !PMECR_WKEVT_MASK) | PMECR_WKEVT_LINK
  }
}

=== FILE: regs.dfy ===
/**
  Register numbers and bit values of the KS8851 that the driver core uses,
  and the bus actions the model records.

  The register header ks8851.h is not part of this model; the values below
  are those of the KS8851 register map. Lemma `IrqFlagsDistinct` states the
  one structural fact the interrupt dispatcher relies on.
*/
module Regs {
  import opened Words

  // SPI opcodes (top two bits of the command byte)
  const KS_SPIOP_RD: bv16 := 0x00
  const KS_SPIOP_WR: bv16 := 0x40
  const KS_SPIOP_RXFIFO: bv8 := 0x80
  const KS_SPIOP_TXFIFO: bv8 := 0xC0

  // register numbers
  const KS_RXCR1: nat := 0x74
  const KS_RXCR2: nat := 0x76
  const KS_TXMIR: nat := 0x78
  const KS_RXFHBCR: nat := 0x7E
  const KS_TXQCR: nat := 0x80
  const KS_RXQCR: nat := 0x82
  const KS_RXFDPR: nat := 0x86
  const KS_ISR: nat := 0x92
  const KS_RXFC: nat := 0x9D
  const KS_MAHTR0: nat := 0xA0
  const KS_MAHTR1: nat := 0xA2
  const KS_MAHTR2: nat := 0xA4
  const KS_MAHTR3: nat := 0xA6
  const KS_PMECR: nat := 0xD4
  // PHY 1 registers
  const KS_P1MBCR: nat := 0xE4
  const KS_P1MBSR: nat := 0xE6
  const KS_PHY1ILR: nat := 0xE8
  const KS_PHY1IHR: nat := 0xEA
  const KS_P1ANAR: nat := 0xEC
  const KS_P1ANLPR: nat := 0xEE

  // interrupt status bits (KS_ISR)
  const IRQ_LCI: bv16 := 0x8000
  const IRQ_TXI: bv16 := 0x4000
  const IRQ_RXI: bv16 := 0x2000
  const IRQ_RXOI: bv16 := 0x0800
  const IRQ_TXPSI: bv16 := 0x0200
  const IRQ_RXPSI: bv16 := 0x0100
  const IRQ_LDI: bv16 := 0x0008
  const IRQ_SPIBEI: bv16 := 0x0002

  // receive control 1 (KS_RXCR1)
  const RXCR1_RXPAFMA: bv16 := 0x0800
  const RXCR1_RXFCE: bv16 := 0x0400
  const RXCR1_RXMAFMA: bv16 := 0x0100
  const RXCR1_RXBE: bv16 := 0x0080
  const RXCR1_RXME: bv16 := 0x0040
  const RXCR1_RXUE: bv16 := 0x0020
  const RXCR1_RXAE: bv16 := 0x0010
  const RXCR1_RXINVF: bv16 := 0x0002
  const RXCR1_RXE: bv16 := 0x0001

  // receive control 2 (KS_RXCR2): SPI receive data burst length = whole frame
  const RXCR2_SRDBL_FRAME: bv16 := 0x0080

  // queue control
  const RXQCR_SDA: bv16 := 0x0008
  const RXQCR_RRXEF: bv16 := 0x0001
  const RXQCR_RXFCTE: bv16 := 0x0020
  const RXQCR_RXDBCTE: bv16 := 0x0040
  const RXQCR_RXDTTE: bv16 := 0x0080
  /** The cached RXQCR value `ks8851_net_open` stores: interrupt on frame count, byte count and time. */
  const RXQCR_CACHED: bv16 := RXQCR_RXFCTE | RXQCR_RXDBCTE | RXQCR_RXDTTE
  const TXQCR_AETFE: bv16 := 0x0004
  const RXFDPR_RXFPAI: bv16 := 0x4000

  // power management (KS_PMECR)
  const PMECR_WKEVT_MASK: bv16 := 0x003C
  const PMECR_WKEVT_LINK: bv16 := 0x0008   // 0x2 << 2; 0x1 << 2 is the energy-detect event
  const PMECR_PM_MASK: bv16 := 0x0003
  const PMECR_PM_NORMAL: bv16 := 0x0
  const PMECR_PM_SOFTDOWN: bv16 := 0x2

  // transmit frame control word
  const TXFR_TXIC: bv16 := 0x8000
  const TXFR_TXFID_MASK: bv16 := 0x003F

  /** The register numbers of the chip are byte addresses below 256. */
  predicate IsRegister(reg: nat) {
    reg < 0x100
  }

  /** Every interrupt flag is a single bit and no two of them share it. */
  lemma IrqFlagsDistinct()
    ensures forall f :: f in [IRQ_LCI, IRQ_TXI, IRQ_RXI, IRQ_RXOI, IRQ_TXPSI, IRQ_RXPSI, IRQ_LDI, IRQ_SPIBEI] ==>
              f != 0 && f & (f - 1) == 0
    ensures IRQ_LCI & IRQ_LDI == 0 && IRQ_LCI & IRQ_RXPSI == 0 && IRQ_TXI & IRQ_RXI == 0
  {
  }

  /**
    One bus exchange as the model records it. `Read16` covers both the
    plain and the 32-bit fast-path 16-bit read.
  */
  datatype Action =
    | Read8(reg: nat)
    | Read16(reg: nat)
    | Write16(reg: nat, value: bv16)
    | ProbeFrameLengths(count: nat)
    | ReadRxFifo(bytes: nat)
    | WriteTxFifo(words: seq<Word>)

  predicate IsFifoAccess(a: Action) {
    a.ProbeFrameLengths? || a.ReadRxFifo? || a.WriteTxFifo?
  }

  // ---------------------------------------------------------------------
  // The register file as the writes of a log leave it
  // ---------------------------------------------------------------------

  /** The registers after one action: a 16-bit write stores its value, anything else leaves them. */
  function ApplyAction(rf: map<nat, bv16>, a: Action): map<nat, bv16> {
    if a.Write16? then rf[a.reg := a.value] else rf
  }

  /** The registers after every action of a log, in log order. */
  function ApplyWrites(rf: map<nat, bv16>, acts: seq<Action>): map<nat, bv16>
    decreases |acts|
  {
    if acts == [] then rf else ApplyAction(ApplyWrites(rf, acts[..|acts| - 1]), acts[|acts| - 1])
  }

  /** Action `a` is a 16-bit write to register `r`. */
  predicate Writes(a: Action, r: nat) {
    a.Write16? && a.reg == r
  }

  /** A register no action of the log writes keeps its value, and stays absent if it was. */
  lemma {:induction false} ApplyWritesFrame(rf: map<nat, bv16>, acts: seq<Action>, r: nat)
    requires forall i :: 0 <= i < |acts| ==> !Writes(acts[i], r)
    ensures r in ApplyWrites(rf, acts) <==> r in rf
    ensures r in rf ==> ApplyWrites(rf, acts)[r] == rf[r]
    decreases |acts|
  {
    if acts != [] {
      var init := acts[..|acts| - 1];
      assert forall i :: 0 <= i < |init| ==> init[i] == acts[i];
      assert !Writes(acts[|acts| - 1], r);
      ApplyWritesFrame(rf, init, r);
    }
  }

  /** The last write to a register decides its value. */
  lemma {:induction false} ApplyWritesLast(rf: map<nat, bv16>, acts: seq<Action>, i: nat)
    requires i < |acts| && acts[i].Write16?
    requires forall j :: i < j < |acts| ==> !Writes(acts[j], acts[i].reg)
    ensures acts[i].reg in ApplyWrites(rf, acts)
    ensures ApplyWrites(rf, acts)[acts[i].reg] == acts[i].value
    decreases |acts|
  {
    var init := acts[..|acts| - 1];
    if i < |acts| - 1 {
      assert init[i] == acts[i];
      assert forall j :: i < j < |init| ==> init[j] == acts[j];
      assert !Writes(acts[|acts| - 1], acts[i].reg);
      ApplyWritesLast(rf, init, i);
    }
  }
}

=== FILE: rxdecode.dfy ===
/**
  The frame walk of `ks8851_rx_pkts3` over the bulk receive buffer.

  The buffer is a sequence of 32-bit words exactly as the 32-bit FIFO read
  left them in memory. Word 0 is the chip's dummy word; each frame is an
  envelope word (status and 12-bit byte count, the count including the
  4-byte CRC) followed by the frame padded to a multiple of four bytes.

  `DecodeAsWritten` follows the driver's code, with its C `unsigned`
  arithmetic; the code has no bound checks, so every access outside a
  buffer ends the model's run with an `Overrun` naming the access.
  `Decode` is the corrected walk: it bounds each frame by its byte offset
  in the buffer, and it is the one the receive pipeline uses.
*/
module RxDecode {
  import opened Bits
  import opened Words
  import opened RxSize

  /** A frame handed to the networking stack: the envelope length and the delivered bytes as host-order words. */
  datatype RxFrame = RxFrame(wireLen: nat, data: seq<Word>)

  /** A short-buffer recovery: bytes copied from the bulk buffer, then bytes fetched by one more FIFO read. */
  datatype FollowUp = FollowUp(frameLen: nat, prefix: nat, rest: nat)

  /** The access that would fall outside its buffer. */
  datatype Access = EnvelopeRead | PayloadSwap | Delivery | RecoveryCopy | RecoveryRead | RecoverySwap

  /** Why a receive run ended. */
  datatype Stop =
    | NoFrames             // the frame count register read zero
    | NoMemory             // an allocation before the bulk read failed
    | Drained              // every counted frame was decoded
    | Capped               // a frame ran past a buffer of the maximum size
    | Recovered            // one follow-up read completed the last frame
    | RecoveryAllocFailed  // the recovery buffer could not be allocated
    | Overrun(at: Access)  // as written only: memory outside a buffer would be touched
    | Exhausted            // corrected only: the next envelope lies past the buffer
    | Runt                 // corrected only: an envelope length below the CRC size

  datatype Decoded = Decoded(frames: seq<RxFrame>, followUps: seq<FollowUp>, stop: Stop)

  /** The ends a decode walk can reach; the other reasons belong to the pipeline or to one decoder only. */
  predicate AsWrittenEnd(s: Stop) {
    s.Drained? || s.Capped? || s.Recovered? || s.RecoveryAllocFailed? || s.Overrun?
  }

  predicate CorrectedEnd(s: Stop) {
    s.Drained? || s.Capped? || s.Recovered? || s.RecoveryAllocFailed? || s.Exhausted? || s.Runt?
  }

  /**
    Length field of an envelope word as it sits in the buffer,
    `(htonl(w) >> 16) & 0xfff`: bits 16 to 27 of the host-order value, that
    is byte 2 and the low nibble of byte 3 of the swapped word.
  */
  function EnvelopeLen(w: Word): (n: nat)
    ensures n < 0x1000
  {
    var h := Htonl(w);
    h.b2 + 0x100 * (h.b3 % 0x10)
  }

  /**
    `ALIGN(rxlen - 4, 4)` in C `unsigned` arithmetic, the delivered byte
    count, by cases: the frame without its CRC rounded up to whole words
    for every length of at least 4, nothing for lengths 1 to 3, and almost
    4 GiB for length 0, where `rxlen - 4` wraps. `RxAlignIsUnsigned` shows
    the cases are the C expression.
  */
  function RxAlign(rxlen: nat): (r: nat)
    requires rxlen < 0x1000
    ensures r % 4 == 0 && r < TWO_32
  {
    if rxlen >= 4 then Align4(rxlen - 4)
    else if rxlen == 0 then TWO_32 - 4
    else 0
  }

  lemma RxAlignIsUnsigned(rxlen: nat)
    requires rxlen < 0x1000
    ensures RxAlign(rxlen) == AlignU32(SubU32(rxlen, 4))
  {
  }

  /** Words one frame occupies after its envelope: `ALIGN(rxlen, 4) / 4`. */
  function PayloadWords(rxlen: nat): (n: nat)
    ensures 4 * n == Align4(rxlen)
  {
    (rxlen + 3) / 4
  }

  /** For real frames the delivered bytes are the padded frame less its CRC word. */
  lemma RxAlignWords(rxlen: nat)
    requires 4 <= rxlen < 0x1000
    ensures 1 <= PayloadWords(rxlen) && 4 * PayloadWords(rxlen) == Align4(rxlen)
    ensures RxAlign(rxlen) == Align4(rxlen) - 4 == 4 * (PayloadWords(rxlen) - 1)
  {
  }

  predicate DeliveredAsWritten(f: RxFrame) {
    f.wireLen < 0x1000 && 4 * |f.data| == RxAlign(f.wireLen)
  }

  predicate AllDeliveredAsWritten(fs: seq<RxFrame>) {
    forall i :: 0 <= i < |fs| ==> DeliveredAsWritten(fs[i])
  }

  predicate RecoveryAsWritten(fu: FollowUp) {
    fu.frameLen < 0x1000 && fu.prefix < TWO_32 && fu.rest < TWO_32
    && AddU32(fu.prefix, fu.rest) == RxAlign(fu.frameLen)
  }

  /**
    The short-buffer branch of the decode loop for the frame whose
    envelope sits just before word `p`: `totallen` would pass `rxfifosize`,
    so the code copies what it believes is the buffered part of the frame
    into a new buffer and reads the rest with one more FIFO read.
  */
  function RecoverAsWritten(buf: seq<Word>, size: nat, p: nat, rxlen: nat, total: nat,
                            more: nat -> Word): (r: Decoded)
    requires 4 * |buf| == size <= MAX_RXFIFO_SIZE
    requires total <= size && total % 4 == 0 && rxlen < 0x1000
    requires AddU32(total, RxAlign(rxlen)) > size
    ensures |r.frames| <= 1 && |r.followUps| == 1
    ensures r.stop == Recovered || r.stop.Overrun?
    ensures r.frames != [] ==> DeliveredAsWritten(r.frames[0])
    ensures RecoveryAsWritten(r.followUps[0])
  {
    var rxalign := RxAlign(rxlen);
    var d := AddU32(total, rxalign) - size;
    AddU32Aligned(total, rxalign);
    var pre := SubU32(rxalign, d);
    var fu := [FollowUp(rxlen, pre, d)];
    if pre > rxlen || 4 * p + pre > size then Decoded([], fu, Overrun(RecoveryCopy))
    else if pre + d > rxlen then Decoded([], fu, Overrun(RecoveryRead))
    else if 4 * PayloadWords(rxlen) > rxlen then Decoded([], fu, Overrun(RecoverySwap))
    else
      assert pre + d == rxalign && d % 4 == 0;
      var buf1 := buf[p .. p + pre / 4] + Take(more, d / 4);
      Decoded([RxFrame(rxlen, SwapAll(buf1))], fu, Recovered)
  }

  /** The outcome of one pass of the decode loop: a frame delivered and where the walk goes on, or the walk's end. */
  datatype Step = Deliver(frame: RxFrame, next: nat, total: nat) | Finish(result: Decoded)

  /**
    One pass of the decode loop of `ks8851_rx_pkts3` as written, for the
    envelope at word `idx` with `total` = `totallen` so far. `size` is
    `rxfifosize`, `recoveryAlloc` the fate of the `kzalloc` for the
    recovery buffer and `more` the words the follow-up read returns.
  */
  function StepAsWritten(buf: seq<Word>, size: nat, idx: nat, total: nat,
                         recoveryAlloc: bool, more: nat -> Word): (s: Step)
    requires 4 * |buf| == size <= MAX_RXFIFO_SIZE
    requires total <= size && total % 4 == 0 && idx < |buf|
    ensures s.Deliver? ==> s.total <= size && s.total % 4 == 0
  {
    var rxlen := EnvelopeLen(buf[idx]);
    var p := idx + 1;
    var rxalign := RxAlign(rxlen);
    var t := AddU32(total, rxalign);
    AddU32Aligned(total, rxalign);
    if t > size then
      if size >= MAX_RXFIFO_SIZE then Finish(Decoded([], [], Capped))
      else if !recoveryAlloc then Finish(Decoded([], [], RecoveryAllocFailed))
      else Finish(RecoverAsWritten(buf, size, p, rxlen, total, more))
    else if p + PayloadWords(rxlen) > |buf| then Finish(Decoded([], [], Overrun(PayloadSwap)))
    else if 4 * p + rxalign > size then Finish(Decoded([], [], Overrun(Delivery)))
    else
      Deliver(RxFrame(rxlen, SwapAll(buf[p .. p + rxalign / 4])), p + PayloadWords(rxlen), t)
  }

  /** The decode loop of `ks8851_rx_pkts3` as written, from word `idx` with `left` frames still counted. */
  function DecodeAsWritten(buf: seq<Word>, size: nat, idx: nat, left: nat, total: nat,
                           recoveryAlloc: bool, more: nat -> Word): (r: Decoded)
    requires 4 * |buf| == size <= MAX_RXFIFO_SIZE
    requires total <= size && total % 4 == 0
    decreases left
  {
    if left == 0 then Decoded([], [], Drained)
    else if idx >= |buf| then Decoded([], [], Overrun(EnvelopeRead))
    else
      match StepAsWritten(buf, size, idx, total, recoveryAlloc, more)
      case Finish(r) => r
      case Deliver(frame, next, t) =>
        var rest := DecodeAsWritten(buf, size, next, left - 1, t, recoveryAlloc, more);
        Decoded([frame] + rest.frames, rest.followUps, rest.stop)
  }

  /** Every pass of the loop that delivers a frame delivers `RxAlign` bytes and moves forward; every other pass ends the walk. */
  lemma StepAsWrittenShape(buf: seq<Word>, size: nat, idx: nat, total: nat, recoveryAlloc: bool, more: nat -> Word)
    requires 4 * |buf| == size <= MAX_RXFIFO_SIZE
    requires total <= size && total % 4 == 0 && idx < |buf|
    ensures var s := StepAsWritten(buf, size, idx, total, recoveryAlloc, more);
            s.Deliver? ==> DeliveredAsWritten(s.frame) && s.next > idx
    ensures var s := StepAsWritten(buf, size, idx, total, recoveryAlloc, more);
            s.Finish? ==> && |s.result.frames| <= 1 && |s.result.followUps| <= 1
                          && AsWrittenEnd(s.result.stop) && !s.result.stop.Drained?
                          && (s.result.frames != [] ==> DeliveredAsWritten(s.result.frames[0]))
                          && (s.result.followUps != [] ==> RecoveryAsWritten(s.result.followUps[0]))
                          && (s.result.followUps != [] ==> s.result.stop == Recovered || s.result.stop.Overrun?)
  {
  }

  /** The walk as written delivers at most one frame per counted frame, all of them when it drains. */
  lemma {:induction false} DecodeAsWrittenCount(buf: seq<Word>, size: nat, idx: nat, left: nat, total: nat,
                                recoveryAlloc: bool, more: nat -> Word)
    requires 4 * |buf| == size <= MAX_RXFIFO_SIZE
    requires total <= size && total % 4 == 0
    ensures var r := DecodeAsWritten(buf, size, idx, left, total, recoveryAlloc, more);
            && |r.frames| <= left
            && (r.stop == Drained ==> |r.frames| == left)
            && AsWrittenEnd(r.stop)
    decreases left
  {
    if left > 0 && idx < |buf| {
      StepAsWrittenShape(buf, size, idx, total, recoveryAlloc, more);
      var s := StepAsWritten(buf, size, idx, total, recoveryAlloc, more);
      if s.Deliver? {
        DecodeAsWrittenCount(buf, size, s.next, left - 1, s.total, recoveryAlloc, more);
      }
    }
  }

  /** The walk as written makes at most one follow-up read, and only on the way to `Recovered` or an overrun. */
  lemma {:induction false} DecodeAsWrittenFollowUps(buf: seq<Word>, size: nat, idx: nat, left: nat, total: nat,
                                recoveryAlloc: bool, more: nat -> Word)
    requires 4 * |buf| == size <= MAX_RXFIFO_SIZE
    requires total <= size && total % 4 == 0
    ensures var r := DecodeAsWritten(buf, size, idx, left, total, recoveryAlloc, more);
            && |r.followUps| <= 1
            && (forall i :: 0 <= i < |r.followUps| ==> RecoveryAsWritten(r.followUps[i]))
            && (r.followUps != [] ==> r.stop == Recovered || r.stop.Overrun?)
    decreases left
  {
    if left > 0 && idx < |buf| {
      StepAsWrittenShape(buf, size, idx, total, recoveryAlloc, more);
      var s := StepAsWritten(buf, size, idx, total, recoveryAlloc, more);
      if s.Deliver? {
        DecodeAsWrittenFollowUps(buf, size, s.next, left - 1, s.total, recoveryAlloc, more);
      }
    }
  }

  /** Every frame the walk as written delivers is as long as `RxAlign` of its envelope length. */
  lemma {:induction false} DecodeAsWrittenFrames(buf: seq<Word>, size: nat, idx: nat, left: nat, total: nat,
                                recoveryAlloc: bool, more: nat -> Word)
    requires 4 * |buf| == size <= MAX_RXFIFO_SIZE
    requires total <= size && total % 4 == 0
    ensures AllDeliveredAsWritten(DecodeAsWritten(buf, size, idx, left, total, recoveryAlloc, more).frames)
    decreases left
  {
    if left > 0 && idx < |buf| {
      StepAsWrittenShape(buf, size, idx, total, recoveryAlloc, more);
      var s := StepAsWritten(buf, size, idx, total, recoveryAlloc, more);
      if s.Deliver? {
        DecodeAsWrittenFrames(buf, size, s.next, left - 1, s.total, recoveryAlloc, more);
        var rest := DecodeAsWritten(buf, size, s.next, left - 1, s.total, recoveryAlloc, more);
        var r := DecodeAsWritten(buf, size, idx, left, total, recoveryAlloc, more);
        assert r.frames == [s.frame] + rest.frames;
        forall i | 0 <= i < |r.frames|
          ensures DeliveredAsWritten(r.frames[i])
        {
          if i > 0 {
            assert r.frames[i] == rest.frames[i - 1];
          } else {
            assert r.frames[i] == s.frame;
          }
        }
      }
    }
  }

  /**
    What the walk as written can return: at most one frame per counted
    frame and at most one follow-up read, every frame as long as
    `RxAlign` of its envelope length, and a follow-up only on the way to
    `Recovered` or an overrun.
  */
  lemma DecodeAsWrittenShape(buf: seq<Word>, size: nat, idx: nat, left: nat, total: nat,
                             recoveryAlloc: bool, more: nat -> Word)
    requires 4 * |buf| == size <= MAX_RXFIFO_SIZE
    requires total <= size && total % 4 == 0
    ensures var r := DecodeAsWritten(buf, size, idx, left, total, recoveryAlloc, more);
            && |r.frames| <= left && |r.followUps| <= 1
            && (r.stop == Drained ==> |r.frames| == left)
            && AsWrittenEnd(r.stop)
            && (forall i :: 0 <= i < |r.frames| ==> DeliveredAsWritten(r.frames[i]))
            && (forall i :: 0 <= i < |r.followUps| ==> RecoveryAsWritten(r.followUps[i]))
            && (r.followUps != [] ==> r.stop == Recovered || r.stop.Overrun?)
  {
    DecodeAsWrittenCount(buf, size, idx, left, total, recoveryAlloc, more);
    DecodeAsWrittenFollowUps(buf, size, idx, left, total, recoveryAlloc, more);
    DecodeAsWrittenFrames(buf, size, idx, left, total, recoveryAlloc, more);
  }

  predicate DeliveredWhole(f: RxFrame) {
    4 <= f.wireLen < 0x1000 && 4 * |f.data| == Align4(f.wireLen) - 4
  }

  predicate RecoveryWhole(fu: FollowUp) {
    4 <= fu.frameLen < 0x1000 && fu.prefix % 4 == 0 && fu.rest % 4 == 0 && fu.rest > 0
    && fu.prefix + fu.rest == Align4(fu.frameLen) - 4
  }

  /**
    The corrected short-buffer branch for a frame of `rxlen` bytes whose
    payload starts at word `p` and runs past the end of the buffer: the
    words present are copied and exactly the missing ones are read.
  */
  function Recover(buf: seq<Word>, p: nat, rxlen: nat, more: nat -> Word): (r: Decoded)
    requires 4 <= rxlen < 0x1000 && p <= |buf| < p + PayloadWords(rxlen) - 1
    ensures |r.frames| == 1 && DeliveredWhole(r.frames[0])
    ensures |r.followUps| == 1 && RecoveryWhole(r.followUps[0]) && r.followUps[0].prefix == 4 * (|buf| - p)
    ensures r.stop == Recovered
  {
    var d := p + PayloadWords(rxlen) - 1 - |buf|;
    var buf1 := buf[p..] + Take(more, d);
    Decoded([RxFrame(rxlen, SwapAll(buf1))], [FollowUp(rxlen, 4 * (|buf| - p), 4 * d)], Recovered)
  }

  /**
    The corrected decode loop. A frame is delivered from the bulk buffer
    when its bytes (without the CRC word) end inside it; otherwise, unless
    the buffer already has the maximum size, the bytes present are copied
    and exactly the missing ones are fetched by one follow-up read, and
    the walk ends. Envelope lengths below 4 end the walk.
  */
  function Decode(buf: seq<Word>, size: nat, idx: nat, left: nat,
                  recoveryAlloc: bool, more: nat -> Word): (r: Decoded)
    requires 4 * |buf| == size <= MAX_RXFIFO_SIZE
    decreases left
  {
    if left == 0 then Decoded([], [], Drained)
    else if idx >= |buf| then Decoded([], [], Exhausted)
    else
      var rxlen := EnvelopeLen(buf[idx]);
      if rxlen < 4 then Decoded([], [], Runt)
      else
        var p := idx + 1;
        var k := PayloadWords(rxlen) - 1;
        if p + k <= |buf| then
          var frame := RxFrame(rxlen, SwapAll(buf[p .. p + k]));
          var rest := Decode(buf, size, p + k + 1, left - 1, recoveryAlloc, more);
          Decoded([frame] + rest.frames, rest.followUps, rest.stop)
        else if size >= MAX_RXFIFO_SIZE then Decoded([], [], Capped)
        else if !recoveryAlloc then Decoded([], [], RecoveryAllocFailed)
        else Recover(buf, p, rxlen, more)
  }

  /** The corrected walk delivers at most one frame per counted frame, all of them when it drains. */
  lemma {:induction false} DecodeCount(buf: seq<Word>, size: nat, idx: nat, left: nat,
                                recoveryAlloc: bool, more: nat -> Word)
    requires 4 * |buf| == size <= MAX_RXFIFO_SIZE
    ensures var r := Decode(buf, size, idx, left, recoveryAlloc, more);
            && |r.frames| <= left
            && (r.stop == Drained ==> |r.frames| == left)
            && CorrectedEnd(r.stop)
    decreases left
  {
    if left > 0 && idx < |buf| && EnvelopeLen(buf[idx]) >= 4 {
      var rxlen := EnvelopeLen(buf[idx]);
      var k := PayloadWords(rxlen) - 1;
      if idx + 1 + k <= |buf| {
        DecodeCount(buf, size, idx + 1 + k + 1, left - 1, recoveryAlloc, more);
      }
    }
  }

  /** The corrected walk makes at most one follow-up read, a whole one, exactly when it ends `Recovered`. */
  lemma {:induction false} DecodeFollowUps(buf: seq<Word>, size: nat, idx: nat, left: nat,
                                recoveryAlloc: bool, more: nat -> Word)
    requires 4 * |buf| == size <= MAX_RXFIFO_SIZE
    ensures var r := Decode(buf, size, idx, left, recoveryAlloc, more);
            && |r.followUps| <= 1
            && (forall i :: 0 <= i < |r.followUps| ==> RecoveryWhole(r.followUps[i]))
            && (r.followUps != [] <==> r.stop == Recovered)
    decreases left
  {
    if left > 0 && idx < |buf| && EnvelopeLen(buf[idx]) >= 4 {
      var rxlen := EnvelopeLen(buf[idx]);
      var k := PayloadWords(rxlen) - 1;
      if idx + 1 + k <= |buf| {
        DecodeFollowUps(buf, size, idx + 1 + k + 1, left - 1, recoveryAlloc, more);
      }
    }
  }

  predicate AllDeliveredWhole(fs: seq<RxFrame>) {
    forall i :: 0 <= i < |fs| ==> DeliveredWhole(fs[i])
  }

  /** Every frame the corrected walk delivers is a whole frame less its CRC word. */
  lemma {:induction false} DecodeFrames(buf: seq<Word>, size: nat, idx: nat, left: nat,
                                recoveryAlloc: bool, more: nat -> Word)
    requires 4 * |buf| == size <= MAX_RXFIFO_SIZE
    ensures AllDeliveredWhole(Decode(buf, size, idx, left, recoveryAlloc, more).frames)
    decreases left
  {
    if left > 0 && idx < |buf| && EnvelopeLen(buf[idx]) >= 4 {
      var rxlen := EnvelopeLen(buf[idx]);
      var k := PayloadWords(rxlen) - 1;
      if idx + 1 + k <= |buf| {
        DecodeFrames(buf, size, idx + 1 + k + 1, left - 1, recoveryAlloc, more);
        var rest := Decode(buf, size, idx + 1 + k + 1, left - 1, recoveryAlloc, more);
        var r := Decode(buf, size, idx, left, recoveryAlloc, more);
        var frame := RxFrame(rxlen, SwapAll(buf[idx + 1 .. idx + 1 + k]));
        assert DeliveredWhole(frame);
        assert r.frames == [frame] + rest.frames;
        forall i | 0 <= i < |r.frames|
          ensures DeliveredWhole(r.frames[i])
        {
          if i > 0 {
            assert r.frames[i] == rest.frames[i - 1];
          }
        }
      }
    }
  }

  /**
    What the corrected walk can return: at most one frame per counted
    frame, every frame whole (its padded length less the CRC word), and a
    follow-up read, which fetches exactly the missing words, exactly when
    the walk ends `Recovered`.
  */
  lemma DecodeShape(buf: seq<Word>, size: nat, idx: nat, left: nat,
                    recoveryAlloc: bool, more: nat -> Word)
    requires 4 * |buf| == size <= MAX_RXFIFO_SIZE
    ensures var r := Decode(buf, size, idx, left, recoveryAlloc, more);
            && |r.frames| <= left && |r.followUps| <= 1
            && (r.stop == Drained ==> |r.frames| == left)
            && CorrectedEnd(r.stop)
            && (forall i :: 0 <= i < |r.frames| ==> DeliveredWhole(r.frames[i]))
            && (forall i :: 0 <= i < |r.followUps| ==> RecoveryWhole(r.followUps[i]))
            && (r.followUps != [] <==> r.stop == Recovered)
  {
    DecodeCount(buf, size, idx, left, recoveryAlloc, more);
    DecodeFollowUps(buf, size, idx, left, recoveryAlloc, more);
    DecodeFrames(buf, size, idx, left, recoveryAlloc, more);
  }

}

=== FILE: rxfilter.dfy ===
/**
  `ks8851_set_rx_mode`: the receive filter settings computed from the
  interface flags and the multicast list, and the "store and schedule only
  if different" step; plus the work it schedules.

  `ether_crc` is not part of this model: each multicast address is given
  by its 32-bit CRC.
*/
module RxFilter {
  import opened Bits
  import opened Regs

  /** The interface flags the filter looks at: IFF_PROMISC, IFF_ALLMULTI and IFF_MULTICAST. */
  datatype IfFlags = IfFlags(promisc: bool, allMulti: bool, multicast: bool)

  /** `struct ks8851_rxctrl`: the four hash table words, RXCR1 and RXCR2. */
  datatype RxCtrl = RxCtrl(mchash: seq<bv16>, rxcr1: bv16, rxcr2: bv16)

  /** Bits every mode sets in RXCR1: unicast, broadcast, receive enable and flow control. */
  const RXCR1_ALWAYS: bv16 := RXCR1_RXUE | RXCR1_RXBE | RXCR1_RXE | RXCR1_RXFCE

  const EMPTY_HASH: seq<bv16> := [0, 0, 0, 0]

  /** `crc >>= (32 - 6)`: the top six bits of a CRC. */
  function Crc6(crc: nat): (h: nat)
    requires crc < TWO_32
    ensures h < 0x40
  {
    crc / 0x400_0000
  }

  /** Bit `k` of a 16-bit word. */
  function Bit(k: nat): bv16
    requires k < 16
  {
    (1 as bv16) << k
  }

  /** `mchash[h >> 4] |= 1 << (h & 0xf)`. */
  function AddHash(t: seq<bv16>, h: nat): (r: seq<bv16>)
    requires |t| == 4 && h < 0x40
    ensures |r| == 4
  {
    t[h / 16 := t[h / 16] | Bit(h % 16)]
  }

  /** The hash table after every address of the list, in list order. */
  function HashTable(crcs: seq<nat>): (r: seq<bv16>)
    requires forall i :: 0 <= i < |crcs| ==> crcs[i] < TWO_32
    ensures |r| == 4
  {
    if crcs == [] then EMPTY_HASH
    else AddHash(HashTable(crcs[..|crcs| - 1]), Crc6(crcs[|crcs| - 1]))
  }

  /** The filter lets through multicast hash value `h`: its bit is set in its bucket. */
  predicate Accepts(t: seq<bv16>, h: nat)
    requires |t| == 4 && h < 0x40
  {
    t[h / 16] & Bit(h % 16) != 0
  }

  lemma BitOr(x: bv16, j: nat, k: nat)
    requires j < 16 && k < 16
    ensures (x | Bit(j)) & Bit(k) != 0 <==> x & Bit(k) != 0 || j == k
  {
  }

  /** Adding a hash value makes the filter accept it, and nothing else changes. */
  lemma AddHashAccepts(t: seq<bv16>, h: nat, g: nat)
    requires |t| == 4 && h < 0x40 && g < 0x40
    ensures Accepts(AddHash(t, h), g) <==> Accepts(t, g) || g == h
  {
    if g / 16 == h / 16 {
      BitOr(t[h / 16], h % 16, g % 16);
    }
  }

  /**
    The table accepts exactly the hash values of the listed addresses: each
    address sets its own bit, and no bit is set that no address asked for.
  */
  lemma {:induction false} HashTableExact(crcs: seq<nat>, g: nat)
    requires forall i :: 0 <= i < |crcs| ==> crcs[i] < TWO_32
    requires g < 0x40
    ensures Accepts(HashTable(crcs), g) <==> exists i :: 0 <= i < |crcs| && Crc6(crcs[i]) == g
    decreases |crcs|
  {
    if crcs != [] {
      var init := crcs[..|crcs| - 1];
      var last := |crcs| - 1;
      HashTableExact(init, g);
      AddHashAccepts(HashTable(init), Crc6(crcs[last]), g);
      if exists i :: 0 <= i < |crcs| && Crc6(crcs[i]) == g {
        var i :| 0 <= i < |crcs| && Crc6(crcs[i]) == g;
        if i < last {
          assert init[i] == crcs[i];
        }
      }
      if exists i :: 0 <= i < |init| && Crc6(init[i]) == g {
        var i :| 0 <= i < |init| && Crc6(init[i]) == g;
        assert crcs[i] == init[i];
      }
    } else {
      assert EMPTY_HASH[g / 16] == 0;
    }
  }

  /**
    The settings `ks8851_set_rx_mode` computes. Every mode keeps unicast,
    broadcast, receive and flow control on and reads whole frames per
    burst; the mode bits follow the precedence promiscuous, all-multicast,
    listed multicast, unicast/broadcast only; and the hash table is used
    only in the listed-multicast mode.
  */
  function RxMode(flags: IfFlags, crcs: seq<nat>): (r: RxCtrl)
    requires forall i :: 0 <= i < |crcs| ==> crcs[i] < TWO_32
    ensures |r.mchash| == 4
    ensures r.rxcr1 & RXCR1_ALWAYS == RXCR1_ALWAYS
    ensures r.rxcr2 == RXCR2_SRDBL_FRAME
    ensures flags.promisc <==> r.rxcr1 & RXCR1_RXINVF != 0
    ensures r.rxcr1 & RXCR1_RXAE != 0 <==> flags.promisc || flags.allMulti
    ensures r.rxcr1 & RXCR1_RXME != 0 <==> !flags.promisc && (flags.allMulti || (flags.multicast && crcs != []))
    ensures r.rxcr1 & RXCR1_RXMAFMA != 0 <==> !flags.promisc && flags.allMulti
    ensures r.rxcr1 & RXCR1_RXPAFMA != 0 <==> !flags.promisc
    ensures r.mchash != EMPTY_HASH ==> !flags.promisc && !flags.allMulti && flags.multicast
  {
    var (hash, mode) :=
      if flags.promisc then (EMPTY_HASH, RXCR1_RXAE | RXCR1_RXINVF)
      else if flags.allMulti then (EMPTY_HASH, RXCR1_RXME | RXCR1_RXAE | RXCR1_RXPAFMA | RXCR1_RXMAFMA)
      else if flags.multicast && crcs != [] then (HashTable(crcs), RXCR1_RXME | RXCR1_RXPAFMA)
      else (EMPTY_HASH, RXCR1_RXPAFMA);
    RxCtrl(hash, mode | RXCR1_ALWAYS, 0 | RXCR2_SRDBL_FRAME)
  }

  /** In listed-multicast mode the chip accepts exactly the listed addresses' hash values. */
  lemma RxModeHashExact(flags: IfFlags, crcs: seq<nat>, g: nat)
    requires forall i :: 0 <= i < |crcs| ==> crcs[i] < TWO_32
    requires !flags.promisc && !flags.allMulti && flags.multicast && g < 0x40
    ensures Accepts(RxMode(flags, crcs).mchash, g) <==> exists i :: 0 <= i < |crcs| && Crc6(crcs[i]) == g
  {
    if crcs == [] {
      assert EMPTY_HASH[g / 16] == 0;
    } else {
      HashTableExact(crcs, g);
    }
  }

  /** What a call leaves: the stored settings and whether the filter work was scheduled. */
  datatype FilterUpdate = FilterUpdate(stored: RxCtrl, scheduled: bool)

  /** `ks8851_set_rx_mode`: store the new settings and schedule the work only when they differ from the stored ones. */
  function SetRxMode(stored: RxCtrl, flags: IfFlags, crcs: seq<nat>): (u: FilterUpdate)
    requires forall i :: 0 <= i < |crcs| ==> crcs[i] < TWO_32
    ensures u.stored == RxMode(flags, crcs)
    ensures u.scheduled <==> stored != RxMode(flags, crcs)
  {
    var rxctrl := RxMode(flags, crcs);
    if rxctrl != stored then FilterUpdate(rxctrl, true) else FilterUpdate(stored, false)
  }

  /** Asking twice for the same mode schedules nothing the second time and changes nothing. */
  lemma SetRxModeIdempotent(stored: RxCtrl, flags: IfFlags, crcs: seq<nat>)
    requires forall i :: 0 <= i < |crcs| ==> crcs[i] < TWO_32
    ensures var u := SetRxMode(stored, flags, crcs);
            var v := SetRxMode(u.stored, flags, crcs);
            v == FilterUpdate(u.stored, false)
  {
  }

  /**
    `ks8851_rxctrl_work`: shut the receive queue down by clearing RXCR1;
    the new settings are written once the chip reports the stop (RXPSI).
  */
  function RxCtrlWork(): (acts: seq<Action>)
    ensures |acts| == 1 && acts[0].Write16? && acts[0].reg == KS_RXCR1
    ensures acts[0].value & RXCR1_RXE == 0
  {
    [Write16(KS_RXCR1, 0)]
  }

  /** The writes that program stored settings: the four hash words, then RXCR2, then RXCR1. */
  function ProgramFilter(c: RxCtrl): (acts: seq<Action>)
    requires |c.mchash| == 4
    ensures |acts| == 6 && acts[5] == Write16(KS_RXCR1, c.rxcr1)
    ensures forall i :: 0 <= i < 4 ==> acts[i] == Write16(KS_MAHTR0 + 2 * i, c.mchash[i])
    ensures acts[4] == Write16(KS_RXCR2, c.rxcr2)
  {
    [Write16(KS_MAHTR0, c.mchash[0]), Write16(KS_MAHTR1, c.mchash[1]),
     Write16(KS_MAHTR2, c.mchash[2]), Write16(KS_MAHTR3, c.mchash[3]),
     Write16(KS_RXCR2, c.rxcr2), Write16(KS_RXCR1, c.rxcr1)]
  }

  /** The registers `ProgramFilter` writes. */
  const FILTER_REGS: set<nat> := {KS_MAHTR0, KS_MAHTR1, KS_MAHTR2, KS_MAHTR3, KS_RXCR2, KS_RXCR1}

  /**
    Programming the filter leaves the chip holding the stored settings:
    the four hash words in MAHTR0-3, RXCR2 and RXCR1, and no other
    register changes. RXCR1 comes last: just before its write, the hash
    table and RXCR2 are already in place and RXCR1 still holds its old
    value, so receive is re-enabled only under the new filter.
  */
  lemma ProgramFilterStores(c: RxCtrl, rf: map<nat, bv16>)
    requires |c.mchash| == 4
    ensures var after := ApplyWrites(rf, ProgramFilter(c));
            && (forall i :: 0 <= i < 4 ==> KS_MAHTR0 + 2 * i in after && after[KS_MAHTR0 + 2 * i] == c.mchash[i])
            && KS_RXCR2 in after && after[KS_RXCR2] == c.rxcr2
            && KS_RXCR1 in after && after[KS_RXCR1] == c.rxcr1
    ensures var after := ApplyWrites(rf, ProgramFilter(c));
            forall r :: r !in FILTER_REGS ==> (r in after <==> r in rf) && (r in rf ==> after[r] == rf[r])
    ensures var before := ApplyWrites(rf, ProgramFilter(c)[..5]);
            && (forall i :: 0 <= i < 4 ==> KS_MAHTR0 + 2 * i in before && before[KS_MAHTR0 + 2 * i] == c.mchash[i])
            && KS_RXCR2 in before && before[KS_RXCR2] == c.rxcr2
            && (KS_RXCR1 in before <==> KS_RXCR1 in rf)
            && (KS_RXCR1 in rf ==> before[KS_RXCR1] == rf[KS_RXCR1])
  {
    var acts := ProgramFilter(c);
    var init := acts[..5];
    assert forall j :: 0 <= j < 5 ==> init[j] == acts[j];
    forall i | 0 <= i < 4
      ensures KS_MAHTR0 + 2 * i in ApplyWrites(rf, acts)
      ensures ApplyWrites(rf, acts)[KS_MAHTR0 + 2 * i] == c.mchash[i]
      ensures KS_MAHTR0 + 2 * i in ApplyWrites(rf, init)
      ensures ApplyWrites(rf, init)[KS_MAHTR0 + 2 * i] == c.mchash[i]
    {
      ApplyWritesLast(rf, acts, i);
      ApplyWritesLast(rf, init, i);
    }
    ApplyWritesLast(rf, acts, 4);
    ApplyWritesLast(rf, init, 4);
    ApplyWritesLast(rf, acts, 5);
    ApplyWritesFrame(rf, init, KS_RXCR1);
    forall r | r !in FILTER_REGS
      ensures r in ApplyWrites(rf, acts) <==> r in rf
      ensures r in rf ==> ApplyWrites(rf, acts)[r] == rf[r]
    {
      ApplyWritesFrame(rf, acts, r);
    }
  }

  /** The filter work leaves receive turned off, and no register but RXCR1 changes. */
  lemma RxCtrlWorkStopsReceive(rf: map<nat, bv16>)
    ensures var after := ApplyWrites(rf, RxCtrlWork());
            KS_RXCR1 in after && after[KS_RXCR1] & RXCR1_RXE == 0
    ensures var after := ApplyWrites(rf, RxCtrlWork());
            forall r :: r != KS_RXCR1 ==> (r in after <==> r in rf) && (r in rf ==> after[r] == rf[r])
  {
    ApplyWritesLast(rf, RxCtrlWork(), 0);
    forall r | r != KS_RXCR1
      ensures r in ApplyWrites(rf, RxCtrlWork()) <==> r in rf
      ensures r in rf ==> ApplyWrites(rf, RxCtrlWork())[r] == rf[r]
    {
      ApplyWritesFrame(rf, RxCtrlWork(), r);
    }
  }
}

=== FILE: rxfindings.dfy ===
/**
  Where the decode loop of `ks8851_rx_pkts3` as written goes wrong, each
  next to what the corrected walk does with the same buffer.

  - The walk never checks a frame against the buffer it has: the test
    `totallen > rxfifosize` counts only delivered bytes, not the envelope
    and CRC words, so a frame that runs past the buffer goes unnoticed and
    the byte swap writes past the end. A buffer cut at `MAX_RXFIFO_SIZE`
    in the middle of a frame shows it, and so does an uncapped buffer
    whose probe under-reports a frame.
  - The short-buffer recovery copies `rxfifosize - totallen` bytes from the
    frame start, which always reaches past the buffer end: the recovery
    can never complete.
  - An envelope length below 4 wraps `rxlen - 4`.
*/
module RxFindings {
  import opened Bits
  import opened Words
  import opened RxSize
  import opened RxDecode
  import opened RxImage

  // ---------------------------------------------------------------------
  // A queue that does not fit the capped buffer
  // ---------------------------------------------------------------------

  /** Three queued frames of 4095 bytes each: probed, they ask for more than the cap. */
  predicate ThreeLongFrames(fs: seq<WireFrame>) {
    |fs| == 3 && AllValid(fs) && forall i :: 0 <= i < 3 ==> Len(fs[i]) == 4095
  }

  /** The size estimate for such a queue is capped: the bulk read stops inside the third frame. */
  lemma LongFramesCapEstimate(probes: seq<Word>)
    requires |probes| == 3 && forall i :: 0 <= i < 3 ==> ProbeLen(probes[i]) == 4095
    ensures Estimate(true, probes) == MAX_RXFIFO_SIZE
  {
    var a, b, c := probes[..1], probes[..2], probes;
    assert a[..0] == [] && b[..1] == a && c[..2] == b;
    assert SumProbes(a) == 4100 && SumProbes(b) == 8200 && SumProbes(c) == 12300;
  }

  lemma FrameImageAt(buf: seq<Word>, img: seq<Word>, a: nat, x: seq<Word>, y: seq<Word>)
    requires |buf| >= a + |x| && |img| >= a + |x| && buf[..a + |x|] == img[..a + |x|]
    requires img[a .. a + |x|] == x
    ensures buf[a .. a + |x|] == x
  {
    assert buf[a .. a + |x|] == buf[..a + |x|][a..];
    assert img[a .. a + |x|] == img[..a + |x|][a..];
  }

  /** Where the three frames sit in the buffer the capped read leaves. */
  lemma CappedLayout(dummy: Word, fs: seq<WireFrame>)
    requires ThreeLongFrames(fs)
    ensures |FifoImage(dummy, fs)| == 3076
            && var buf := FifoImage(dummy, fs)[..3072];
            && buf[1 .. 1026] == FrameImage(fs[0])
            && buf[1026 .. 2051] == FrameImage(fs[1])
            && buf[2051] == fs[2].envelope
  {
    assert Valid(fs[0]) && Valid(fs[1]) && Valid(fs[2]);
    assert |fs[0].words| == 1024 && |fs[1].words| == 1024 && |fs[2].words| == 1024;
    ImageCons(fs);
    ImageCons(fs[1..]);
    ImageCons(fs[1..][1..]);
    assert fs[1..][0] == fs[1] && fs[1..][1..][0] == fs[2];
    assert fs[1..][1..][1..] == [];
    var a := FrameImage(fs[0]);
    var b := FrameImage(fs[1]);
    var c := FrameImage(fs[2]);
    var img := FifoImage(dummy, fs);
    assert img == [dummy] + a + b + c;
    var buf := img[..3072];
    assert img[1 .. 1026] == a;
    assert img[1026 .. 2051] == b;
    assert img[2051] == c[0];
    FrameImageAt(buf, img, 1, a, a);
    FrameImageAt(buf, img, 1026, b, b);
  }

  /**
    As written: the first two frames arrive, then the swap of the third
    frame runs past the end of the 12288-byte buffer, because `totallen`
    (12276) is still below `rxfifosize`.
  */
  lemma CappedQueueAsWritten(dummy: Word, fs: seq<WireFrame>, recoveryAlloc: bool, more: nat -> Word)
    requires ThreeLongFrames(fs)
    ensures |FifoImage(dummy, fs)| == 3076
            && var buf := FifoImage(dummy, fs)[..3072];
            DecodeAsWritten(buf, MAX_RXFIFO_SIZE, 1, 3, 0, recoveryAlloc, more)
            == Decoded(DeliveredAll(fs[..2]), [], Overrun(PayloadSwap))
  {
    CappedLayout(dummy, fs);
    var buf := FifoImage(dummy, fs)[..3072];
    assert Valid(fs[0]) && Valid(fs[1]) && Valid(fs[2]);
    OneFrame(buf, 1, fs[0]);
    OneFrame(buf, 1026, fs[1]);
    var last := DecodeAsWritten(buf, MAX_RXFIFO_SIZE, 2051, 1, 8184, recoveryAlloc, more);
    assert RxAlign(4095) == 4092 && PayloadWords(4095) == 1024;
    assert StepAsWritten(buf, MAX_RXFIFO_SIZE, 2051, 8184, recoveryAlloc, more) == Finish(Decoded([], [], Overrun(PayloadSwap)));
    assert last == Decoded([], [], Overrun(PayloadSwap));
    DecodeAsWrittenDeliver(buf, MAX_RXFIFO_SIZE, 1026, 2, 4092, recoveryAlloc, more, 4095, 1024, 2051, 1, 8184, last);
    var mid := DecodeAsWritten(buf, MAX_RXFIFO_SIZE, 1026, 2, 4092, recoveryAlloc, more);
    DecodeAsWrittenDeliver(buf, MAX_RXFIFO_SIZE, 1, 3, 0, recoveryAlloc, more, 4095, 1024, 1026, 2, 4092, mid);
    assert DeliveredAll(fs[..2]) == [Delivered(fs[0]), Delivered(fs[1])];
  }

  /** Corrected: the same buffer gives the same two frames, and the walk stops at the cap. */
  lemma CappedQueueCorrected(dummy: Word, fs: seq<WireFrame>, recoveryAlloc: bool, more: nat -> Word)
    requires ThreeLongFrames(fs)
    ensures |FifoImage(dummy, fs)| == 3076
            && var buf := FifoImage(dummy, fs)[..3072];
            Decode(buf, MAX_RXFIFO_SIZE, 1, 3, recoveryAlloc, more) == Decoded(DeliveredAll(fs[..2]), [], Capped)
  {
    CappedLayout(dummy, fs);
    var buf := FifoImage(dummy, fs)[..3072];
    assert Valid(fs[0]) && Valid(fs[1]) && Valid(fs[2]);
    OneFrame(buf, 1, fs[0]);
    OneFrame(buf, 1026, fs[1]);
    assert PayloadWords(4095) == 1024;
    assert Decode(buf, MAX_RXFIFO_SIZE, 2051, 1, recoveryAlloc, more) == Decoded([], [], Capped);
    DecodeStep(buf, MAX_RXFIFO_SIZE, 1026, 2, recoveryAlloc, more);
    DecodeStep(buf, MAX_RXFIFO_SIZE, 1, 3, recoveryAlloc, more);
    assert DeliveredAll(fs[..2]) == [Delivered(fs[0]), Delivered(fs[1])];
  }

  // ---------------------------------------------------------------------
  // A frame past an uncapped buffer
  // ---------------------------------------------------------------------

  /**
    The same blind spot without the cap. The probe reports length 0, so the
    estimate is 8 bytes: the dummy word and one envelope. The envelope then
    says 8. As written, `totallen` becomes 4, within `rxfifosize`, so
    neither the cap nor the recovery branch is taken, and the swap of the
    frame's two words runs past the end of the 8-byte buffer.
  */
  lemma UncappedShortAsWritten(buf: seq<Word>, more: nat -> Word)
    requires |buf| == 2 && EnvelopeLen(buf[1]) == 8
    ensures DecodeAsWritten(buf, 8, 1, 1, 0, true, more) == Decoded([], [], Overrun(PayloadSwap))
  {
    assert RxAlign(8) == 4 && PayloadWords(8) == 2;
  }

  /** Corrected: the frame's one payload word lies past the buffer, so the walk reads it and delivers the frame. */
  lemma UncappedShortCorrected(buf: seq<Word>, more: nat -> Word)
    requires |buf| == 2 && EnvelopeLen(buf[1]) == 8
    ensures Decode(buf, 8, 1, 1, true, more)
            == Decoded([RxFrame(8, SwapAll(Take(more, 1)))], [FollowUp(8, 0, 4)], Recovered)
  {
    assert PayloadWords(8) == 2;
    assert buf[2..] + Take(more, 1) == Take(more, 1);
  }

  // ---------------------------------------------------------------------
  // The short-buffer recovery as written never completes
  // ---------------------------------------------------------------------

  /**
    One pass of the loop keeps the envelope index ahead of `totallen`:
    the walk has read at least one envelope word more than it has
    delivered. Because of that lead, the recovery's copy of
    `rxfifosize - totallen` bytes from the frame start always reaches
    past the buffer end.
  */
  lemma StepAsWrittenKeepsLead(buf: seq<Word>, size: nat, idx: nat, total: nat, recoveryAlloc: bool, more: nat -> Word)
    requires 4 * |buf| == size <= MAX_RXFIFO_SIZE
    requires total <= size && total % 4 == 0 && idx < |buf|
    requires 4 * idx >= total + 4
    ensures var s := StepAsWritten(buf, size, idx, total, recoveryAlloc, more);
            s.Deliver? ==> 4 * s.next >= s.total + 4
    ensures var s := StepAsWritten(buf, size, idx, total, recoveryAlloc, more);
            s.Finish? ==> s.result.stop != Recovered
  {
    var rxlen := EnvelopeLen(buf[idx]);
    if rxlen >= 4 {
      RxAlignWords(rxlen);
    }
  }

  lemma {:induction false} AsWrittenNeverRecovers(buf: seq<Word>, size: nat, idx: nat, left: nat, total: nat,
                                                  recoveryAlloc: bool, more: nat -> Word)
    requires 4 * |buf| == size <= MAX_RXFIFO_SIZE
    requires total <= size && total % 4 == 0
    requires 4 * idx >= total + 4
    ensures DecodeAsWritten(buf, size, idx, left, total, recoveryAlloc, more).stop != Recovered
    decreases left
  {
    if left > 0 && idx < |buf| {
      StepAsWrittenKeepsLead(buf, size, idx, total, recoveryAlloc, more);
      var s := StepAsWritten(buf, size, idx, total, recoveryAlloc, more);
      if s.Deliver? {
        AsWrittenNeverRecovers(buf, size, s.next, left - 1, s.total, recoveryAlloc, more);
      }
    }
  }

  /** From the start of the buffer, no run of the loop as written ends with a completed recovery. */
  lemma AsWrittenRecoveryNeverCompletes(buf: seq<Word>, size: nat, left: nat, recoveryAlloc: bool, more: nat -> Word)
    requires 4 * |buf| == size <= MAX_RXFIFO_SIZE
    ensures DecodeAsWritten(buf, size, 1, left, 0, recoveryAlloc, more).stop != Recovered
  {
    AsWrittenNeverRecovers(buf, size, 1, left, 0, recoveryAlloc, more);
  }

  /**
    A buffer of two words, the dummy and the envelope of a 16-byte frame,
    where the estimate said 8 bytes: as written, the recovery copies 8
    bytes from word 2, past the end of the buffer.
  */
  lemma ShortBufferAsWritten(buf: seq<Word>, more: nat -> Word)
    requires |buf| == 2 && EnvelopeLen(buf[1]) == 16
    ensures DecodeAsWritten(buf, 8, 1, 1, 0, true, more) == Decoded([], [FollowUp(16, 8, 4)], Overrun(RecoveryCopy))
  {
  }

  /**
    Corrected: nothing of the frame is in the buffer, so all three words
    of it (16 bytes less the CRC) come from the follow-up read.
  */
  lemma ShortBufferCorrected(buf: seq<Word>, more: nat -> Word)
    requires |buf| == 2 && EnvelopeLen(buf[1]) == 16
    ensures Decode(buf, 8, 1, 1, true, more)
            == Decoded([RxFrame(16, SwapAll(Take(more, 3)))], [FollowUp(16, 0, 12)], Recovered)
  {
    assert buf[2..] + Take(more, 3) == Take(more, 3);
  }

  // ---------------------------------------------------------------------
  // Envelope lengths below the CRC size
  // ---------------------------------------------------------------------

  /**
    As written, a zero length wraps `rxlen - 4` to almost 4 GiB and sends
    the walk into the recovery branch. Its 8-byte copy into the zero-length
    recovery buffer overruns before the follow-up read of 2^32 - 12 bytes
    it computes is issued; here the buffer is the dummy word and that
    envelope.
  */
  lemma ZeroLengthAsWritten(buf: seq<Word>, more: nat -> Word)
    requires |buf| == 2 && EnvelopeLen(buf[1]) == 0
    ensures DecodeAsWritten(buf, 8, 1, 1, 0, true, more)
            == Decoded([], [FollowUp(0, 8, TWO_32 - 12)], Overrun(RecoveryCopy))
  {
    assert RxAlign(0) == TWO_32 - 4 && AddU32(0, TWO_32 - 4) == TWO_32 - 4;
    assert SubU32(TWO_32 - 4, TWO_32 - 12) == 8;
  }

  /** As written, a length of 1 to 3 bytes hands an empty frame to the stack and steps over one word. */
  lemma TinyLengthAsWritten(buf: seq<Word>, more: nat -> Word)
    requires |buf| == 3 && 1 <= EnvelopeLen(buf[1]) < 4
    ensures DecodeAsWritten(buf, 12, 1, 1, 0, true, more) == Decoded([RxFrame(EnvelopeLen(buf[1]), [])], [], Drained)
  {
    assert buf[2..2] == [];
  }

  /** Corrected: an envelope length below 4 ends the walk as a runt, with nothing delivered. */
  lemma RuntCorrected(buf: seq<Word>, size: nat, idx: nat, left: nat, recoveryAlloc: bool, more: nat -> Word)
    requires 4 * |buf| == size <= MAX_RXFIFO_SIZE
    requires 0 < left && idx < |buf| && EnvelopeLen(buf[idx]) < 4
    ensures Decode(buf, size, idx, left, recoveryAlloc, more) == Decoded([], [], Runt)
  {
  }
}

=== FILE: rximage.dfy ===
/**
  What the chip queues, and what the decode walk should make of it.

  A received frame sits in the receive FIFO as an envelope word (status and
  byte count) followed by the frame bytes padded to whole words. Read as
  32-bit SPI words into a little-endian host, every word arrives
  byte-reversed; `Image` is the buffer content the bulk read leaves in
  memory. The lemmas here state that both decode walks give back exactly
  the frames the chip queued when the buffer holds them all, and that the
  corrected walk still delivers only exact frames when the buffer is short.
*/
module RxImage {
  import opened Bits
  import opened Words
  import opened RxSize
  import opened RxDecode

  /**
    A queued frame: its envelope word as the bulk read stores it, and the
    frame bytes as host-order words, CRC word last. `EnvelopeWord` builds
    the envelope for any status and byte count.
  */
  datatype WireFrame = WireFrame(envelope: Word, words: seq<Word>)

  /** The byte count, CRC included, that the envelope carries. */
  function Len(f: WireFrame): nat {
    EnvelopeLen(f.envelope)
  }

  predicate Valid(f: WireFrame) {
    4 <= Len(f) < 0x1000 && |f.words| == PayloadWords(Len(f))
  }

  predicate AllValid(fs: seq<WireFrame>) {
    forall i :: 0 <= i < |fs| ==> Valid(fs[i])
  }

  /** The envelope word the chip queues for a frame, as it lands in the buffer. */
  function EnvelopeWord(status: u16, len: nat): Word
    requires len < 0x1000
  {
    Htonl(Word(status % 0x100, status / 0x100, len % 0x100, len / 0x100))
  }

  /** The decoder reads back the byte count the chip wrote into the envelope. */
  lemma EnvelopeRoundTrip(status: u16, len: nat)
    requires len < 0x1000
    ensures EnvelopeLen(EnvelopeWord(status, len)) == len
  {
  }

  function FrameImage(f: WireFrame): (r: seq<Word>)
    requires Valid(f)
    ensures |r| == 1 + |f.words|
  {
    [f.envelope] + SwapAll(f.words)
  }

  /** The queued frames back to back, as the bulk read stores them after the dummy word. */
  function Image(fs: seq<WireFrame>): seq<Word>
    requires AllValid(fs)
  {
    if |fs| == 0 then [] else FrameImage(fs[0]) + Image(fs[1..])
  }

  /** The buffer holds the image of `fs` from word `idx` on. */
  predicate ImageAt(buf: seq<Word>, idx: nat, fs: seq<WireFrame>)
    requires AllValid(fs)
  {
    idx + |Image(fs)| <= |buf| && buf[idx .. idx + |Image(fs)|] == Image(fs)
  }

  /** The whole bulk buffer: the dummy word, then the frames. */
  function FifoImage(dummy: Word, fs: seq<WireFrame>): seq<Word>
    requires AllValid(fs)
  {
    [dummy] + Image(fs)
  }

  /** What the stack should receive for a queued frame: its bytes without the CRC word. */
  function Delivered(f: WireFrame): (r: RxFrame)
    requires Valid(f)
    ensures DeliveredWhole(r)
  {
    RxFrame(Len(f), f.words[..|f.words| - 1])
  }

  function DeliveredAll(fs: seq<WireFrame>): (r: seq<RxFrame>)
    requires AllValid(fs)
    ensures |r| == |fs|
  {
    if |fs| == 0 then [] else [Delivered(fs[0])] + DeliveredAll(fs[1..])
  }

  /** The `totallen` the driver accumulates over the frames: their delivered byte counts. */
  function PayloadBytes(fs: seq<WireFrame>): nat
    requires AllValid(fs)
  {
    if |fs| == 0 then 0 else 4 * (|fs[0].words| - 1) + PayloadBytes(fs[1..])
  }

  lemma SliceOfConcat<T>(buf: seq<T>, a: nat, x: seq<T>, y: seq<T>)
    requires a + |x| + |y| <= |buf| && buf[a .. a + |x| + |y|] == x + y
    ensures buf[a .. a + |x|] == x && buf[a + |x| .. a + |x| + |y|] == y
  {
    assert buf[a .. a + |x|] == buf[a .. a + |x| + |y|][..|x|];
    assert buf[a + |x| .. a + |x| + |y|] == buf[a .. a + |x| + |y|][|x|..];
  }

  lemma DeliveredAllCons(fs: seq<WireFrame>)
    requires AllValid(fs) && 0 < |fs|
    ensures DeliveredAll(fs) == [Delivered(fs[0])] + DeliveredAll(fs[1..])
  {
  }

  /** Every queued frame takes its delivered bytes plus two words (envelope and CRC) of the image. */
  lemma {:induction false} PayloadWithinImage(fs: seq<WireFrame>)
    requires AllValid(fs)
    ensures PayloadBytes(fs) + 8 * |fs| == 4 * |Image(fs)|
  {
    if |fs| > 0 {
      PayloadWithinImage(fs[1..]);
    }
  }

  lemma SubSlice<T>(s: seq<T>, a: nat, b: nat, c: nat, d: nat)
    requires a <= b <= |s| && c <= d <= b - a
    ensures s[a..b][c..d] == s[a + c .. a + d]
  {
    var x := s[a..b][c..d];
    var y := s[a + c .. a + d];
    forall i | 0 <= i < |x|
      ensures x[i] == y[i]
    {
      assert x[i] == s[a..b][c + i];
    }
  }

  /** The envelope and the delivered words of one frame image at `idx`. */
  lemma OneFrame(buf: seq<Word>, idx: nat, f: WireFrame)
    requires Valid(f) && idx + |FrameImage(f)| <= |buf| && buf[idx .. idx + |FrameImage(f)|] == FrameImage(f)
    ensures buf[idx] == f.envelope
    ensures SwapAll(buf[idx + 1 .. idx + |f.words|]) == Delivered(f).data
  {
    var fi := FrameImage(f);
    var k := |f.words| - 1;
    assert buf[idx] == buf[idx .. idx + |fi|][0];
    SubSlice(buf, idx, idx + |fi|, 1, 1 + k);
    var sw := SwapAll(f.words);
    assert fi[1 .. 1 + k] == sw[..k];
    SwapAllPrefix(f.words, k);
    SwapAllInvolutive(f.words[..k]);
  }

  /** The image of a non-empty list is the first frame's image followed by the rest. */
  lemma ImageCons(fs: seq<WireFrame>)
    requires AllValid(fs) && 0 < |fs|
    ensures Image(fs) == FrameImage(fs[0]) + Image(fs[1..])
    ensures |Image(fs)| == 1 + |fs[0].words| + |Image(fs[1..])|
  {
  }

  /** The first frame of an image at `idx`: its envelope and delivered words. */
  lemma FrameHead(fs: seq<WireFrame>, buf: seq<Word>, idx: nat)
    requires AllValid(fs) && 0 < |fs|
    requires ImageAt(buf, idx, fs)
    ensures idx + 1 + |fs[0].words| <= |buf|
    ensures EnvelopeLen(buf[idx]) == Len(fs[0])
    ensures SwapAll(buf[idx + 1 .. idx + |fs[0].words|]) == Delivered(fs[0]).data
  {
    ImageCons(fs);
    SliceOfConcat(buf, idx, FrameImage(fs[0]), Image(fs[1..]));
    OneFrame(buf, idx, fs[0]);
  }

  /** The frames after the first of an image at `idx` form an image right after it. */
  lemma FrameRest(fs: seq<WireFrame>, buf: seq<Word>, idx: nat)
    requires AllValid(fs) && 0 < |fs|
    requires ImageAt(buf, idx, fs)
    ensures ImageAt(buf, idx + 1 + |fs[0].words|, fs[1..])
  {
    ImageCons(fs);
    SliceOfConcat(buf, idx, FrameImage(fs[0]), Image(fs[1..]));
  }

  /** One step of the corrected walk over a frame that lies inside the buffer. */
  lemma DecodeStep(buf: seq<Word>, size: nat, idx: nat, left: nat, recoveryAlloc: bool, more: nat -> Word)
    requires 4 * |buf| == size <= MAX_RXFIFO_SIZE
    requires 0 < left && idx < |buf| && 4 <= EnvelopeLen(buf[idx])
    requires idx + PayloadWords(EnvelopeLen(buf[idx])) <= |buf|
    ensures var next := idx + 1 + PayloadWords(EnvelopeLen(buf[idx]));
            var rest := Decode(buf, size, next, left - 1, recoveryAlloc, more);
            Decode(buf, size, idx, left, recoveryAlloc, more)
            == Decoded([RxFrame(EnvelopeLen(buf[idx]), SwapAll(buf[idx + 1 .. next - 1]))] + rest.frames,
                       rest.followUps, rest.stop)
  {
  }

  /**
    One pass of the walk as written over a frame of `rxlen` bytes (`n`
    words) that lies inside the buffer and within `totallen`: the frame is
    delivered and the walk goes on after it.
  */
  lemma StepAsWrittenInside(buf: seq<Word>, size: nat, idx: nat, total: nat,
                            recoveryAlloc: bool, more: nat -> Word, rxlen: nat, n: nat)
    requires 4 * |buf| == size <= MAX_RXFIFO_SIZE && total <= size && total % 4 == 0 && idx < |buf|
    requires rxlen == EnvelopeLen(buf[idx]) && 4 <= rxlen && n == PayloadWords(rxlen)
    requires idx + 1 + n <= |buf| && total + 4 * (n - 1) <= size
    ensures StepAsWritten(buf, size, idx, total, recoveryAlloc, more)
            == Deliver(RxFrame(rxlen, SwapAll(buf[idx + 1 .. idx + n])), idx + 1 + n, total + 4 * (n - 1))
  {
    RxAlignWords(rxlen);
    var rxalign := RxAlign(rxlen);
    assert AddU32(total, rxalign) == total + 4 * (n - 1);
    assert idx + 1 + rxalign / 4 == idx + n;
  }

  /** A frame read off the buffer, followed by a walk that returns the rest of the list, gives the whole list. */
  lemma DecodeCons(fs: seq<WireFrame>, buf: seq<Word>, size: nat, idx: nat,
                   recoveryAlloc: bool, more: nat -> Word)
    requires AllValid(fs) && 0 < |fs| && 4 * |buf| == size <= MAX_RXFIFO_SIZE
    requires idx + 1 + |fs[0].words| <= |buf|
    requires EnvelopeLen(buf[idx]) == Len(fs[0])
    requires SwapAll(buf[idx + 1 .. idx + |fs[0].words|]) == Delivered(fs[0]).data
    requires Decode(buf, size, idx + 1 + |fs[0].words|, |fs[1..]|, recoveryAlloc, more)
             == Decoded(DeliveredAll(fs[1..]), [], Drained)
    ensures Decode(buf, size, idx, |fs|, recoveryAlloc, more) == Decoded(DeliveredAll(fs), [], Drained)
  {
    DecodeStep(buf, size, idx, |fs|, recoveryAlloc, more);
    DeliveredAllCons(fs);
  }

  /**
    The walk as written over a frame inside the buffer: the frame, then
    whatever the walk from `after` returns with `remaining` frames counted
    and `totallen` at `next`.
  */
  lemma {:induction false} DecodeAsWrittenDeliver(buf: seq<Word>, size: nat, idx: nat, left: nat, total: nat,
                                                  recoveryAlloc: bool, more: nat -> Word, rxlen: nat, n: nat,
                                                  after: nat, remaining: nat, next: nat, rest: Decoded)
    requires 4 * |buf| == size <= MAX_RXFIFO_SIZE && total <= size && total % 4 == 0
    requires left == remaining + 1 && idx < |buf|
    requires rxlen == EnvelopeLen(buf[idx]) && 4 <= rxlen && n == PayloadWords(rxlen)
    requires after == idx + 1 + n && after <= |buf|
    requires next == total + 4 * (n - 1) && next <= size && next % 4 == 0
    requires DecodeAsWritten(buf, size, after, remaining, next, recoveryAlloc, more) == rest
    ensures DecodeAsWritten(buf, size, idx, left, total, recoveryAlloc, more)
            == Decoded([RxFrame(rxlen, SwapAll(buf[idx + 1 .. idx + n]))] + rest.frames, rest.followUps, rest.stop)
  {
    StepAsWrittenInside(buf, size, idx, total, recoveryAlloc, more, rxlen, n);
    var s := StepAsWritten(buf, size, idx, total, recoveryAlloc, more);
    assert s.Deliver? && s.next == after && s.total == next && left - 1 == remaining;
  }

  /** The walk as written reads the first frame of an image and then walks the rest. */
  lemma {:induction false} DecodeAsWrittenCons(fs: seq<WireFrame>, tail: seq<WireFrame>, buf: seq<Word>, size: nat,
                                               idx: nat, total: nat, recoveryAlloc: bool, more: nat -> Word,
                                               after: nat, next: nat)
    requires AllValid(fs) && 0 < |fs| && tail == fs[1..] && 4 * |buf| == size <= MAX_RXFIFO_SIZE
    requires after == idx + 1 + |fs[0].words| && after <= |buf|
    requires EnvelopeLen(buf[idx]) == Len(fs[0])
    requires SwapAll(buf[idx + 1 .. idx + |fs[0].words|]) == Delivered(fs[0]).data
    requires total % 4 == 0 && next == total + 4 * (|fs[0].words| - 1) && next <= size && next % 4 == 0
    requires DecodeAsWritten(buf, size, after, |tail|, next, recoveryAlloc, more)
             == Decoded(DeliveredAll(tail), [], Drained)
    ensures DecodeAsWritten(buf, size, idx, |fs|, total, recoveryAlloc, more) == Decoded(DeliveredAll(fs), [], Drained)
  {
    var f := fs[0];
    assert Valid(f);
    assert 4 <= Len(f) && |f.words| == PayloadWords(Len(f)) && |fs| == |tail| + 1;
    var rest := Decoded(DeliveredAll(tail), [], Drained);
    DecodeAsWrittenDeliver(buf, size, idx, |fs|, total, recoveryAlloc, more, Len(f), |f.words|,
                           after, |tail|, next, rest);
    var head := RxFrame(Len(f), SwapAll(buf[idx + 1 .. idx + |f.words|]));
    assert head == Delivered(f);
    DeliveredAllCons(fs);
    assert DeliveredAll(fs) == [head] + DeliveredAll(tail);
  }

  /** The corrected walk returns exactly the queued frames when the buffer holds them all. */
  lemma {:induction false} DecodeImage(fs: seq<WireFrame>, buf: seq<Word>, size: nat, idx: nat,
                                       recoveryAlloc: bool, more: nat -> Word)
    requires AllValid(fs) && 4 * |buf| == size <= MAX_RXFIFO_SIZE
    requires ImageAt(buf, idx, fs)
    ensures Decode(buf, size, idx, |fs|, recoveryAlloc, more) == Decoded(DeliveredAll(fs), [], Drained)
    decreases |fs|
  {
    if |fs| > 0 {
      FrameHead(fs, buf, idx);
      FrameRest(fs, buf, idx);
      DecodeImage(fs[1..], buf, size, idx + 1 + |fs[0].words|, recoveryAlloc, more);
      DecodeCons(fs, buf, size, idx, recoveryAlloc, more);
    } else {
      assert DeliveredAll(fs) == [];
    }
  }

  /** `totallen` after the first frame stays word-aligned and leaves room for the rest. */
  lemma PayloadStep(fs: seq<WireFrame>, size: nat, total: nat)
    requires AllValid(fs) && 0 < |fs|
    requires total % 4 == 0 && total + PayloadBytes(fs) <= size
    ensures var next := total + 4 * (|fs[0].words| - 1);
            next % 4 == 0 && next <= size && next + PayloadBytes(fs[1..]) <= size
  {
    var k := |fs[0].words| - 1;
    AlignedPlusWords(total, k);
  }

  /** The facts one step of `DecodeAsWrittenImage` needs about the first frame of an image. */
  lemma ImageStep(fs: seq<WireFrame>, buf: seq<Word>, size: nat, idx: nat, total: nat)
    requires AllValid(fs) && 0 < |fs| && 4 * |buf| == size <= MAX_RXFIFO_SIZE
    requires ImageAt(buf, idx, fs)
    requires total % 4 == 0 && total + PayloadBytes(fs) <= size
    ensures idx + 1 + |fs[0].words| <= |buf|
    ensures EnvelopeLen(buf[idx]) == Len(fs[0])
    ensures SwapAll(buf[idx + 1 .. idx + |fs[0].words|]) == Delivered(fs[0]).data
    ensures ImageAt(buf, idx + 1 + |fs[0].words|, fs[1..])
    ensures var next := total + 4 * (|fs[0].words| - 1);
            next % 4 == 0 && next <= size && next + PayloadBytes(fs[1..]) <= size
  {
    FrameHead(fs, buf, idx);
    FrameRest(fs, buf, idx);
    PayloadStep(fs, size, total);
  }

  /**
    The walk as written returns exactly the queued frames when the buffer
    holds them all and `totallen` stays within the buffer size.
  */
  lemma {:induction false} DecodeAsWrittenImage(fs: seq<WireFrame>, buf: seq<Word>, size: nat, idx: nat,
                                                total: nat, recoveryAlloc: bool, more: nat -> Word)
    requires AllValid(fs) && 4 * |buf| == size <= MAX_RXFIFO_SIZE
    requires ImageAt(buf, idx, fs)
    requires total % 4 == 0 && total + PayloadBytes(fs) <= size
    ensures DecodeAsWritten(buf, size, idx, |fs|, total, recoveryAlloc, more) == Decoded(DeliveredAll(fs), [], Drained)
    decreases |fs|
  {
    if |fs| > 0 {
      ImageStep(fs, buf, size, idx, total);
      var next := total + 4 * (|fs[0].words| - 1);
      var after := idx + 1 + |fs[0].words|;
      var tail := fs[1..];
      DecodeAsWrittenImage(tail, buf, size, after, next, recoveryAlloc, more);
      DecodeAsWrittenCons(fs, tail, buf, size, idx, total, recoveryAlloc, more, after, next);
    } else {
      assert DeliveredAll(fs) == [];
    }
  }

  /**
    Receive round trip: a bulk buffer holding the dummy word and every
    queued frame decodes, by either walk, to exactly the frames the chip
    queued, in order, with no follow-up read.
  */
  lemma FifoRoundTrip(dummy: Word, fs: seq<WireFrame>, recoveryAlloc: bool, more: nat -> Word)
    requires AllValid(fs) && 4 * |FifoImage(dummy, fs)| <= MAX_RXFIFO_SIZE
    ensures var img := FifoImage(dummy, fs);
            Decode(img, 4 * |img|, 1, |fs|, recoveryAlloc, more) == Decoded(DeliveredAll(fs), [], Drained)
    ensures var img := FifoImage(dummy, fs);
            DecodeAsWritten(img, 4 * |img|, 1, |fs|, 0, recoveryAlloc, more) == Decoded(DeliveredAll(fs), [], Drained)
  {
    var img := FifoImage(dummy, fs);
    assert img[1 .. 1 + |Image(fs)|] == Image(fs);
    PayloadWithinImage(fs);
    DecodeImage(fs, img, 4 * |img|, 1, recoveryAlloc, more);
    DecodeAsWrittenImage(fs, img, 4 * |img|, 1, 0, recoveryAlloc, more);
  }
}

=== FILE: rxpipeline.dfy ===
/**
  One call of `ks8851_rx_pkts3`: read the frame count, probe the frame
  lengths, read the whole estimate in one bulk FIFO read, walk the frames,
  and release the frames with RRXEF.

  The bus is the recorded `Action` list; what the chip returns is part of
  the input: the probe replies, and the receive FIFO as one word stream
  that the bulk read and the follow-up read consume in turn. Allocations
  are success flags. `RxPktsAsWritten` follows the code; `RxPkts` uses the
  corrected walk and always releases the frames once the DMA access has
  started.
*/
module RxPipeline {
  import opened Bits
  import opened Words
  import opened Regs
  import opened RxSize
  import opened RxDecode
  import opened RxImage

  /**
    What one receive run sees: the frame count register, the fate of the
    probe buffers' allocation, the probe replies, the fate of the bulk
    buffer's allocation, the FIFO contents, and the fate of the recovery
    buffer's allocation.
  */
  datatype RxInput = RxInput(rxfc: u8, probeAlloc: bool, probes: nat -> Word,
                             bufAlloc: bool, fifo: nat -> Word, recoveryAlloc: bool)

  /** The bus actions of the run, the frames handed to the stack, the follow-up reads and why the run ended. */
  datatype RxRun = RxRun(actions: seq<Action>, frames: seq<RxFrame>, followUps: seq<FollowUp>, stop: Stop)

  /** `ks8851_wrreg16(ks, KS_RXQCR, ks->rc_rxqcr | RXQCR_SDA)`: start the DMA access. */
  function StartDma(rxqcr: bv16): Action {
    Write16(KS_RXQCR, rxqcr | RXQCR_SDA)
  }

  /** `ks8851_wrreg16(ks, KS_RXQCR, ks->rc_rxqcr | RXQCR_RRXEF)`: end the access and release the frames. */
  function Release(rxqcr: bv16): Action {
    Write16(KS_RXQCR, rxqcr | RXQCR_RRXEF)
  }

  /** Set the FIFO read address to 0 with auto-increment, start the DMA access and read `size` bytes. */
  function BulkRead(rxqcr: bv16, size: nat): seq<Action> {
    [Write16(KS_RXFDPR, RXFDPR_RXFPAI), StartDma(rxqcr), ReadRxFifo(size)]
  }

  function FollowUpReads(fus: seq<FollowUp>): seq<Action> {
    if fus == [] then [] else [ReadRxFifo(fus[0].rest)]
  }

  /** The FIFO words after the first `k`: what a read that follows a read of `k` words returns. */
  function After(s: nat -> Word, k: nat): nat -> Word {
    (j: nat) => s(k + j)
  }

  /** `rx_packets` and `rx_bytes` advance by one and by the envelope length for every delivered frame. */
  function RxBytes(frames: seq<RxFrame>): nat {
    if frames == [] then 0 else frames[0].wireLen + RxBytes(frames[1..])
  }

  /** The size `ks8851_rdfifolen` returns for the run's probes. */
  function RunEstimate(ri: RxInput): int {
    Estimate(ri.probeAlloc, Take(ri.probes, ri.rxfc))
  }

  /** The probe exchange happens when its buffers could be allocated. */
  function Probe(ri: RxInput): seq<Action> {
    if ri.probeAlloc then [ProbeFrameLengths(ri.rxfc)] else []
  }

  /** `ks8851_rx_pkts3` with the corrected walk. */
  function RxPkts(ri: RxInput, rxqcr: bv16): (r: RxRun)
  {
    var head := [Read8(KS_RXFC)];
    if ri.rxfc == 0 then RxRun(head, [], [], NoFrames)
    else
      var size := RunEstimate(ri);
      if size <= 0 || !ri.bufAlloc then RxRun(head + Probe(ri), [], [], NoMemory)
      else
        var buf := Take(ri.fifo, size / 4);
        var d := Decode(buf, size, 1, ri.rxfc, ri.recoveryAlloc, After(ri.fifo, size / 4));
        RxRun(head + Probe(ri) + BulkRead(rxqcr, size) + FollowUpReads(d.followUps) + [Release(rxqcr)],
              d.frames, d.followUps, d.stop)
  }

  /**
    `ks8851_rx_pkts3` as written. When the recovery buffer cannot be
    allocated the code returns at once, without the RRXEF release. The
    code itself never stops at an access outside a buffer; the model does:
    such a run is cut off at that access, so what the code does after it
    (including the RRXEF release at the end) is not logged. A recovery is logged as far as it got: its
    follow-up FIFO read comes after the copy into the new buffer, so the
    read is logged when only the byte swap leaves that buffer.
  */
  function RxPktsAsWritten(ri: RxInput, rxqcr: bv16): (r: RxRun)
  {
    var head := [Read8(KS_RXFC)];
    if ri.rxfc == 0 then RxRun(head, [], [], NoFrames)
    else
      var size := RunEstimate(ri);
      if size <= 0 || !ri.bufAlloc then RxRun(head + Probe(ri), [], [], NoMemory)
      else
        var buf := Take(ri.fifo, size / 4);
        var d := DecodeAsWritten(buf, size, 1, ri.rxfc, 0, ri.recoveryAlloc, After(ri.fifo, size / 4));
        var started := head + Probe(ri) + BulkRead(rxqcr, size);
        if d.stop == Overrun(RecoverySwap) then RxRun(started + FollowUpReads(d.followUps), d.frames, d.followUps, d.stop)
        else if d.stop == RecoveryAllocFailed || d.stop.Overrun? then RxRun(started, d.frames, d.followUps, d.stop)
        else RxRun(started + FollowUpReads(d.followUps) + [Release(rxqcr)], d.frames, d.followUps, d.stop)
  }

  /** Number of bus actions that read the receive FIFO. */
  function FifoReads(acts: seq<Action>): nat {
    if acts == [] then 0 else (if acts[0].ReadRxFifo? then 1 else 0) + FifoReads(acts[1..])
  }

  lemma FifoReadsAppend(a: seq<Action>, b: seq<Action>)
    ensures FifoReads(a + b) == FifoReads(a) + FifoReads(b)
  {
    if a != [] {
      assert (a + b)[0] == a[0] && (a + b)[1..] == a[1..] + b;
      assert FifoReads(a + b) == (if a[0].ReadRxFifo? then 1 else 0) + FifoReads(a[1..] + b);
      FifoReadsAppend(a[1..], b);
    } else {
      assert a + b == b;
    }
  }

  lemma FifoReadsOne(a: Action)
    ensures FifoReads([a]) == if a.ReadRxFifo? then 1 else 0
  {
    assert [a][1..] == [];
  }

  /** Before the DMA access starts, a run neither reads the FIFO nor starts the access. */
  lemma {:induction false} NoFifoReadBeforeDma(ri: RxInput)
    ensures FifoReads([Read8(KS_RXFC)] + Probe(ri)) == 0
    ensures forall a :: a in [Read8(KS_RXFC)] + Probe(ri) ==> !a.Write16?
  {
    FifoReadsOne(Read8(KS_RXFC));
    if ri.probeAlloc {
      FifoReadsOne(ProbeFrameLengths(ri.rxfc));
      FifoReadsAppend([Read8(KS_RXFC)], [ProbeFrameLengths(ri.rxfc)]);
    } else {
      assert [Read8(KS_RXFC)] + Probe(ri) == [Read8(KS_RXFC)];
    }
  }

  /**
    What every corrected run looks like: it starts by reading the frame
    count; a zero count ends it at once; it hands at most `rxfc` frames to
    the stack; it reads the FIFO at most twice, the second time exactly
    when a short-buffer recovery completes; and once the DMA access has
    started the run ends with the RRXEF release.
  */
  lemma {:induction false} RxPktsShape(ri: RxInput, rxqcr: bv16)
    ensures var r := RxPkts(ri, rxqcr);
            0 < |r.actions| && r.actions[0] == Read8(KS_RXFC)
    ensures ri.rxfc == 0 <==> RxPkts(ri, rxqcr).stop == NoFrames
    ensures RxPkts(ri, rxqcr).stop == NoFrames ==> RxPkts(ri, rxqcr).actions == [Read8(KS_RXFC)]
    ensures |RxPkts(ri, rxqcr).frames| <= ri.rxfc
    ensures var r := RxPkts(ri, rxqcr);
            FifoReads(r.actions) == (if r.stop in {NoFrames, NoMemory} then 0 else 1) + |r.followUps|
    ensures var r := RxPkts(ri, rxqcr);
            r.followUps != [] <==> r.stop == Recovered
    ensures var r := RxPkts(ri, rxqcr);
            StartDma(rxqcr) in r.actions <==> r.stop !in {NoFrames, NoMemory}
    ensures var r := RxPkts(ri, rxqcr);
            StartDma(rxqcr) in r.actions ==> r.actions[|r.actions| - 1] == Release(rxqcr)
  {
    NoFifoReadBeforeDma(ri);
    var pre := [Read8(KS_RXFC)] + Probe(ri);
    if ri.rxfc != 0 {
      var size := RunEstimate(ri);
      if size > 0 && ri.bufAlloc {
        var buf := Take(ri.fifo, size / 4);
        DecodeShape(buf, size, 1, ri.rxfc, ri.recoveryAlloc, After(ri.fifo, size / 4));
        var d := Decode(buf, size, 1, ri.rxfc, ri.recoveryAlloc, After(ri.fifo, size / 4));
        var started := pre + BulkRead(rxqcr, size);
        FifoReadsAppend(pre, BulkRead(rxqcr, size));
        FifoReadsAppend(started, FollowUpReads(d.followUps));
        FifoReadsAppend(started + FollowUpReads(d.followUps), [Release(rxqcr)]);
        assert started[|pre| + 1] == StartDma(rxqcr);
        FifoReadsOne(Write16(KS_RXFDPR, RXFDPR_RXFPAI));
        FifoReadsOne(StartDma(rxqcr));
        FifoReadsOne(ReadRxFifo(size));
        FifoReadsAppend([Write16(KS_RXFDPR, RXFDPR_RXFPAI)], [StartDma(rxqcr)]);
        FifoReadsAppend([Write16(KS_RXFDPR, RXFDPR_RXFPAI), StartDma(rxqcr)], [ReadRxFifo(size)]);
        assert BulkRead(rxqcr, size) == [Write16(KS_RXFDPR, RXFDPR_RXFPAI), StartDma(rxqcr)] + [ReadRxFifo(size)];
        if d.followUps != [] {
          FifoReadsOne(ReadRxFifo(d.followUps[0].rest));
        }
        FifoReadsOne(Release(rxqcr));
      } else {
        assert RxPkts(ri, rxqcr).actions == pre;
      }
    }
  }

  /**
    What every modelled run of the code as written looks like. Once the
    DMA access has started, the frames are released exactly when the walk
    drained the queue, hit the cap, or completed a recovery. A failed
    recovery allocation returns with the access still open and the frames
    still queued; a walk that leaves its buffer is where the model cuts
    the run off, so its log ends without the release too.
  */
  lemma {:induction false} RxPktsAsWrittenShape(ri: RxInput, rxqcr: bv16)
    requires rxqcr & RXQCR_RRXEF == 0
    ensures var r := RxPktsAsWritten(ri, rxqcr);
            0 < |r.actions| && r.actions[0] == Read8(KS_RXFC)
    ensures |RxPktsAsWritten(ri, rxqcr).frames| <= ri.rxfc
    ensures var r := RxPktsAsWritten(ri, rxqcr);
            StartDma(rxqcr) in r.actions <==> r.stop !in {NoFrames, NoMemory}
    ensures var r := RxPktsAsWritten(ri, rxqcr);
            Release(rxqcr) in r.actions <==> r.stop in {Drained, Capped, Recovered}
  {
    NoFifoReadBeforeDma(ri);
    var pre := [Read8(KS_RXFC)] + Probe(ri);
    assert StartDma(rxqcr) != Release(rxqcr) by {
      assert (rxqcr | RXQCR_SDA) & RXQCR_RRXEF == 0;
    }
    if ri.rxfc != 0 {
      var size := RunEstimate(ri);
      if size > 0 && ri.bufAlloc {
        var buf := Take(ri.fifo, size / 4);
        DecodeAsWrittenShape(buf, size, 1, ri.rxfc, 0, ri.recoveryAlloc, After(ri.fifo, size / 4));
        var started := pre + BulkRead(rxqcr, size);
        assert started[|pre| + 1] == StartDma(rxqcr);
        assert Release(rxqcr) !in started;
      } else {
        assert RxPktsAsWritten(ri, rxqcr).actions == pre;
      }
    }
  }

  /**
    Such runs exist: one frame counted, its probe reading a length of 0
    (a 8-byte estimate), and an envelope of 16 bytes in the FIFO, with
    the recovery allocation failing.
  */
  lemma {:induction false} RecoveryAllocFailureReachable(ri: RxInput, rxqcr: bv16)
    requires ri.rxfc == 1 && ri.probeAlloc && ri.bufAlloc && !ri.recoveryAlloc
    requires ProbeLen(ri.probes(0)) == 0 && EnvelopeLen(ri.fifo(1)) == 16
    ensures RxPktsAsWritten(ri, rxqcr).stop == RecoveryAllocFailed
  {
    var ps := Take(ri.probes, 1);
    assert ps[..0] == [] && ps[0] == ri.probes(0);
    assert SumProbes(ps) == 4;
    assert RunEstimate(ri) == 8;
    var buf := Take(ri.fifo, 2);
    assert buf[1] == ri.fifo(1);
  }

  /** Corrected, the same failure still releases the frames. */
  lemma {:induction false} CorrectedReleasesOnAllocFailure(ri: RxInput, rxqcr: bv16)
    requires RxPkts(ri, rxqcr).stop == RecoveryAllocFailed
    ensures var r := RxPkts(ri, rxqcr);
            StartDma(rxqcr) in r.actions && r.actions[|r.actions| - 1] == Release(rxqcr)
  {
    RxPktsShape(ri, rxqcr);
  }

  // ---------------------------------------------------------------------
  // End to end: a consistent queue is received exactly
  // ---------------------------------------------------------------------

  /** Each probe reply carries the length of the queued frame at its position. */
  predicate ProbesMatch(probes: nat -> Word, fs: seq<WireFrame>) {
    forall i :: 0 <= i < |fs| ==> ProbeLen(probes(i)) == Len(fs[i])
  }

  /** The receive FIFO starts with `img`. */
  predicate FifoStartsWith(fifo: nat -> Word, img: seq<Word>) {
    forall i :: 0 <= i < |img| ==> fifo(i) == img[i]
  }

  lemma {:induction false} SumProbesCons(ps: seq<Word>)
    requires 0 < |ps|
    ensures SumProbes(ps) == ProbeBytes(ps[0]) + SumProbes(ps[1..])
    decreases |ps|
  {
    if |ps| > 1 {
      var init := ps[..|ps| - 1];
      SumProbesCons(init);
      assert init[0] == ps[0] && init[1..] == ps[1..][..|ps[1..]| - 1];
      assert ps[1..][|ps[1..]| - 1] == ps[|ps| - 1];
    } else {
      assert ps[..0] == [] && ps[1..] == [];
    }
  }

  /** Probe replies that match the queue add up to exactly the queue's FIFO image. */
  lemma {:induction false} ProbesSizeImage(ps: seq<Word>, fs: seq<WireFrame>)
    requires AllValid(fs) && |ps| == |fs|
    requires forall i :: 0 <= i < |fs| ==> ProbeLen(ps[i]) == Len(fs[i])
    ensures SumProbes(ps) == 4 * |Image(fs)|
    decreases |fs|
  {
    if |fs| > 0 {
      SumProbesCons(ps);
      ProbesSizeImage(ps[1..], fs[1..]);
      assert Valid(fs[0]);
      ImageCons(fs);
    }
  }

  /** The receive FIFO a consistent run sees holds the queue image, and the probes match it. */
  predicate Consistent(ri: RxInput, dummy: Word, fs: seq<WireFrame>) {
    && AllValid(fs) && |fs| == ri.rxfc
    && ProbesMatch(ri.probes, fs)
    && FifoStartsWith(ri.fifo, FifoImage(dummy, fs))
  }

  lemma {:induction false} ConsistentEstimate(ri: RxInput, dummy: Word, fs: seq<WireFrame>)
    requires Consistent(ri, dummy, fs) && ri.probeAlloc && 4 * |FifoImage(dummy, fs)| <= MAX_RXFIFO_SIZE
    ensures RunEstimate(ri) == 4 * |FifoImage(dummy, fs)|
  {
    ProbesSizeImage(Take(ri.probes, ri.rxfc), fs);
  }

  /** The bulk read of a consistent run returns the queue image, and walking it delivers the queue. */
  lemma {:induction false} ConsistentDecode(ri: RxInput, dummy: Word, fs: seq<WireFrame>)
    requires Consistent(ri, dummy, fs) && ri.probeAlloc && 4 * |FifoImage(dummy, fs)| <= MAX_RXFIFO_SIZE
    ensures var size := RunEstimate(ri);
            && size == 4 * |FifoImage(dummy, fs)|
            && Decode(Take(ri.fifo, size / 4), size, 1, ri.rxfc, ri.recoveryAlloc, After(ri.fifo, size / 4))
                 == Decoded(DeliveredAll(fs), [], Drained)
            && DecodeAsWritten(Take(ri.fifo, size / 4), size, 1, ri.rxfc, 0, ri.recoveryAlloc, After(ri.fifo, size / 4))
                 == Decoded(DeliveredAll(fs), [], Drained)
  {
    var img := FifoImage(dummy, fs);
    ConsistentEstimate(ri, dummy, fs);
    assert RunEstimate(ri) / 4 == |img|;
    assert Take(ri.fifo, |img|) == img;
    FifoRoundTrip(dummy, fs, ri.recoveryAlloc, After(ri.fifo, |img|));
  }

  lemma {:induction false} RxBytesDelivered(fs: seq<WireFrame>)
    requires AllValid(fs)
    ensures RxBytes(DeliveredAll(fs)) == QueueBytes(fs)
    decreases |fs|
  {
    if |fs| > 0 {
      DeliveredAllCons(fs);
      RxBytesDelivered(fs[1..]);
      assert ([Delivered(fs[0])] + DeliveredAll(fs[1..]))[1..] == DeliveredAll(fs[1..]);
    }
  }

  /** The bytes of a queue as the chip counts them: every frame's envelope length, CRC included. */
  function QueueBytes(fs: seq<WireFrame>): nat {
    if fs == [] then 0 else Len(fs[0]) + QueueBytes(fs[1..])
  }

  /**
    Receive end to end: when the probes and the FIFO agree on a queue whose
    image fits one bulk read and the buffers can be allocated, both the
    code as written and the corrected run read the FIFO once, hand every
    queued frame to the stack in order, count all their bytes, and release
    them.
  */
  lemma {:induction false} RxPktsDeliversQueue(ri: RxInput, rxqcr: bv16, dummy: Word, fs: seq<WireFrame>)
    requires Consistent(ri, dummy, fs) && 0 < |fs| && ri.probeAlloc && ri.bufAlloc
    requires 4 * |FifoImage(dummy, fs)| <= MAX_RXFIFO_SIZE
    ensures var size := 4 * |FifoImage(dummy, fs)|;
            var acts := [Read8(KS_RXFC), ProbeFrameLengths(|fs|)] + BulkRead(rxqcr, size) + [Release(rxqcr)];
            && RxPkts(ri, rxqcr) == RxRun(acts, DeliveredAll(fs), [], Drained)
            && RxPktsAsWritten(ri, rxqcr) == RxRun(acts, DeliveredAll(fs), [], Drained)
    ensures RxBytes(RxPkts(ri, rxqcr).frames) == QueueBytes(fs)
  {
    ConsistentDecode(ri, dummy, fs);
    RxBytesDelivered(fs);
  }
}

=== FILE: rxsize.dfy ===
/**
  The receive size estimate of `ks8851_rdfifolen`: one chained bus exchange
  probes the byte count of each queued frame, and the counts are summed
  into the size of the single bulk FIFO read that follows.
*/
module RxSize {
  import opened Bits
  import opened Words

  /** `MAX_RXFIFO_SIZE`: the largest bulk receive read. */
  const MAX_RXFIFO_SIZE: nat := 12 * 1024

  const ENOMEM: int := 12

  /**
    Frame length carried by one probe reply, `htons((u16)rxd[count]) & 0xfff`:
    the low halfword of the stored word holds the register's two data bytes
    in wire order, so `htons` restores the register value.
  */
  function ProbeLen(w: Word): (n: nat)
    ensures n < 0x1000
  {
    w.b1 + 0x100 * (w.b0 % 0x10)
  }

  /** FIFO bytes one probed frame occupies: status/length word plus the padded frame. */
  function ProbeBytes(w: Word): (n: nat)
    ensures n % 4 == 0 && ProbeLen(w) + 4 <= n <= 0x1000 + 4
  {
    Align4(ProbeLen(w)) + 4
  }

  /** Total FIFO bytes of all probed frames. */
  function SumProbes(ps: seq<Word>): nat
  {
    if |ps| == 0 then 0 else SumProbes(ps[..|ps| - 1]) + ProbeBytes(ps[|ps| - 1])
  }

  lemma {:induction false} SumProbesAligned(ps: seq<Word>)
    ensures SumProbes(ps) % 4 == 0
  {
    if |ps| > 0 {
      SumProbesAligned(ps[..|ps| - 1]);
      AlignedSum(SumProbes(ps[..|ps| - 1]), ProbeBytes(ps[|ps| - 1]));
    }
  }

  /** Probing more frames never shrinks the total. */
  lemma {:induction false} SumProbesMonotone(ps: seq<Word>, k: nat)
    requires k <= |ps|
    ensures SumProbes(ps[..k]) <= SumProbes(ps)
    decreases |ps|
  {
    if k < |ps| {
      assert ps[..|ps| - 1][..k] == ps[..k];
      SumProbesMonotone(ps[..|ps| - 1], k);
    } else {
      assert ps[..k] == ps;
    }
  }

  lemma SumProbesSnoc(ps: seq<Word>, k: nat)
    requires k < |ps|
    ensures SumProbes(ps[..k + 1]) == SumProbes(ps[..k]) + ProbeBytes(ps[k])
  {
    assert ps[..k + 1][..k] == ps[..k];
  }

  /** The 16-bit accumulator does not wrap below 2^16. */
  lemma NoWrap16(x: nat)
    requires x < 0x1_0000
    ensures x % 0x1_0000 == x
  {
  }

  /**
    What `ks8851_rdfifolen` computes, stated without its loop: the leading
    dummy word plus every probed frame, capped at `MAX_RXFIFO_SIZE`; or
    -ENOMEM when one of its two allocations fails.
  */
  function Estimate(allocOk: bool, probes: seq<Word>): (r: int)
    ensures !allocOk ==> r == -ENOMEM
    ensures allocOk ==> r % 4 == 0 && 4 <= r <= MAX_RXFIFO_SIZE
    ensures allocOk && 4 + SumProbes(probes) <= MAX_RXFIFO_SIZE ==> r == 4 + SumProbes(probes)
    ensures allocOk && 4 + SumProbes(probes) >= MAX_RXFIFO_SIZE ==> r == MAX_RXFIFO_SIZE
  {
    SumProbesAligned(probes);
    if !allocOk then -ENOMEM
    else if 4 + SumProbes(probes) >= MAX_RXFIFO_SIZE then MAX_RXFIFO_SIZE
    else 4 + SumProbes(probes)
  }

  /**
    `ks8851_rdfifolen` as written: the 16-bit accumulator `tmpfifosize`
    sums `ALIGN(len,4)+4` per probe and stops once it reaches the cap, then
    adds the dummy word and caps. `acc` is the accumulator's final value;
    it never comes near wrapping, and stopping early gives the same size as
    summing every probe.
  */
  method RdFifoLen(fc: u16, allocOk: bool, probes: seq<Word>) returns (r: int, acc: nat)
    requires |probes| == fc
    ensures r == Estimate(allocOk, probes)
    ensures acc <= 0x4000 + 4 < 0x1_0000
  {
    if !allocOk {
      return -ENOMEM, 0;
    }
    var count: nat := 0;
    var tmp: nat := 0;
    while count < fc
      invariant count <= fc
      invariant tmp == SumProbes(probes[..count])
      invariant tmp % 4 == 0 && tmp <= 0x4000
      decreases fc - count
    {
      if tmp >= MAX_RXFIFO_SIZE {
        break;
      }
      var step := ProbeBytes(probes[count]);
      SumProbesSnoc(probes, count);
      SumProbesAligned(probes[..count + 1]);
      assert tmp <= MAX_RXFIFO_SIZE - 4;
      NoWrap16(tmp + step);
      tmp := (tmp + step) % 0x1_0000;
      count := count + 1;
    }
    SumProbesMonotone(probes, count);
    assert count == fc ==> probes[..count] == probes;
    NoWrap16(tmp + 4);
    tmp := (tmp + 4) % 0x1_0000;
    acc := tmp;
    r := if tmp >= MAX_RXFIFO_SIZE then MAX_RXFIFO_SIZE else tmp;
  }
}

=== FILE: tx.dfy ===
/**
  The transmit side: `calc_txlen`, the admission decision of
  `ks8851_start_xmit`, the batch packer `ks8851_wrpkts3` and the loop of
  `ks8851_tx_work` that repeats it until the queue is empty.

  A queued frame is its byte count and its data as memory words, with the
  tail of the last word (the bytes `ALIGN(len,4)` reads past `len`)
  included. The packer writes, per frame, a header word whose host value
  is `len << 16 | ctrl`, swapped with `htonl`, then the payload words, each
  swapped with `htonl`.
*/
module Tx {
  import opened Bits
  import opened Words
  import opened Regs

  /** `TX_DMA_BUFFER_SIZE`: the bytes the packer allocates for one batch. */
  const TX_DMA_BUFFER_SIZE: nat := 8192 * 3
  /** The soft cap: a batch takes no further frame once it holds this many bytes. */
  const TX_SOFT_CAP: nat := 6144
  /** `KSZ8851_TX_SPACE`: the transmit budget the probe starts with. */
  const KSZ8851_TX_SPACE: nat := 6144 * 3
  /** Frames the stack hands over at the default MTU are shorter than this. */
  const MAX_TX_LEN: nat := 0x800

  /** `calc_txlen`: the FIFO bytes a frame takes, a header word plus its data rounded up to words. */
  function CalcTxLen(len: nat): (n: nat)
    ensures n % 4 == 0 && len + 4 <= n <= len + 7
  {
    4 + Align4(len)
  }

  /** The only value `calc_txlen`'s contract allows: a multiple of 4 between `len + 4` and `len + 7`. */
  lemma CalcTxLenUnique(len: nat, n: nat)
    requires n % 4 == 0 && len + 4 <= n <= len + 7
    ensures n == CalcTxLen(len)
  {
  }

  datatype TxFrame = TxFrame(len: nat, data: seq<Word>)

  /** A frame the packer can take: short enough, with its data padded to whole words. */
  predicate Sendable(f: TxFrame) {
    f.len < MAX_TX_LEN && 4 * |f.data| == Align4(f.len)
  }

  predicate AllSendable(q: seq<TxFrame>) {
    forall f | f in q :: Sendable(f)
  }

  /** The FIFO bytes a queue will take once packed. */
  function Needed(q: seq<TxFrame>): nat {
    if q == [] then 0 else CalcTxLen(q[0].len) + Needed(q[1..])
  }

  lemma {:induction false} NeededAppend(q: seq<TxFrame>, f: TxFrame)
    ensures Needed(q + [f]) == Needed(q) + CalcTxLen(f.len)
    decreases |q|
  {
    if q == [] {
      assert [f][1..] == [];
    } else {
      assert (q + [f])[1..] == q[1..] + [f];
      NeededAppend(q[1..], f);
    }
  }

  // ---------------------------------------------------------------------
  // Admission
  // ---------------------------------------------------------------------

  /**
    What the transmit path keeps between calls: the space budget, the
    queue, and the u8 frame id counter. `txSpace` is the same `ks->tx_space`
    field as `Irq.NetState.txSpace`, which the interrupt handler refreshes.
  */
  datatype TxState = TxState(txSpace: u16, txq: seq<TxFrame>, fid: u8)

  datatype Verdict = TxOk | TxBusy

  /** The outcome of `ks8851_start_xmit`: the new state, the verdict, whether the stack queue was stopped. */
  datatype Xmit = Xmit(state: TxState, verdict: Verdict, stopped: bool, workQueued: bool)

  function StartXmit(s: TxState, f: TxFrame): (r: Xmit)
    ensures r.workQueued
    ensures r.verdict == TxBusy <==> CalcTxLen(f.len) > s.txSpace
    ensures r.verdict == TxBusy ==> r.state == s && r.stopped
    ensures r.verdict == TxOk ==>
              && r.state.txq == s.txq + [f] && r.state.fid == s.fid && !r.stopped
              && r.state.txSpace + CalcTxLen(f.len) == s.txSpace
  {
    var needed := CalcTxLen(f.len);
    if needed > s.txSpace then Xmit(s, TxBusy, true, true)
    else Xmit(TxState(s.txSpace - needed, s.txq + [f], s.fid), TxOk, false, true)
  }

  /** The budget plus what the queue will take: what the chip had free when the budget was last read. */
  function Committed(s: TxState): nat {
    s.txSpace + Needed(s.txq)
  }

  /** Admission moves bytes from the budget to the queue and never loses or invents any. */
  lemma StartXmitKeepsCommitted(s: TxState, f: TxFrame)
    ensures Committed(StartXmit(s, f).state) == Committed(s)
  {
    NeededAppend(s.txq, f);
  }

  // ---------------------------------------------------------------------
  // The batch packer
  // ---------------------------------------------------------------------

  /** The memory word of the 32-bit value `hi << 16 | lo` on the little-endian host. */
  function HostWord(lo: u16, hi: u16): Word {
    Word(lo % 0x100, lo / 0x100, hi % 0x100, hi / 0x100)
  }

  /** `htonl(cpu_to_le16(len) << 16 | cpu_to_le16(ctrl))`: the header word the packer stores for a frame. */
  function TxHeader(ctrl: u16, len: u16): Word {
    Htonl(HostWord(ctrl, len))
  }

  /**
    The header leaves the host as the chip expects it: the control word,
    then the byte count, each low byte first.
  */
  lemma TxHeaderWire(ctrl: u16, len: u16)
    ensures WireOrder(TxHeader(ctrl, len)) == [ctrl % 0x100, ctrl / 0x100, len % 0x100, len / 0x100]
  {
  }

  /** `fid & TXFR_TXFID_MASK` for the u8 counter: its low six bits. */
  function FrameId(fid: u8): nat {
    fid % 0x40
  }

  /** The control half of a header: the frame id, with TXFR_TXIC when the chip should interrupt on completion. */
  function Ctrl(fid: u8, irq: bool): (c: u16)
    ensures c % 0x8000 == FrameId(fid) && (c >= 0x8000 <==> irq)
  {
    FrameId(fid) + if irq then 0x8000 else 0
  }

  /** One frame in the buffer: its header, then its data swapped word by word. */
  function Packet(ctrl: u16, f: TxFrame): seq<Word>
    requires Sendable(f)
  {
    [TxHeader(ctrl, f.len)] + SwapAll(f.data)
  }

  /** On the wire a packet is its header, then the frame's bytes in memory order. */
  lemma PacketWire(ctrl: u16, f: TxFrame)
    requires Sendable(f)
    ensures Wire(Packet(ctrl, f)) == WireOrder(TxHeader(ctrl, f.len)) + Memory(f.data)
  {
    var p := Packet(ctrl, f);
    assert p[1..] == SwapAll(f.data);
    WireOfSwapped(f.data);
  }

  /** One call of the packer: the words written, the frames taken, the frame id counter after them, the byte count. */
  datatype Batch = Batch(words: seq<Word>, sent: nat, fid: u8, len: nat)

  /** What the packer's loop leaves: the words written, the frames taken and the byte count. */
  datatype Packed = Packed(words: seq<Word>, sent: nat, len: nat)

  /**
    The loop of `ks8851_wrpkts3` from a point where `len` bytes are packed
    and the frame id counter has reached `next` (before wrapping): while
    the queue is not empty and `len < 6144`, take the head, give it the
    counter's u8 value as its id, and set TXFR_TXIC when it was the last
    frame queued or `len >= 6144`.
  */
  function Pack(q: seq<TxFrame>, next: nat, len: nat): (b: Packed)
    requires AllSendable(q) && len < TX_SOFT_CAP + CalcTxLen(MAX_TX_LEN - 1)
    ensures b.sent <= |q| && len + 4 * |b.words| == b.len
    ensures b.len < TX_SOFT_CAP + CalcTxLen(MAX_TX_LEN - 1)
    ensures q != [] && len < TX_SOFT_CAP ==> b.sent > 0
    ensures b.sent < |q| ==> b.len >= TX_SOFT_CAP
    decreases |q|
  {
    if q == [] || len >= TX_SOFT_CAP then Packed([], 0, len)
    else
      var f := q[0];
      var last := |q| == 1;
      var ctrl := Ctrl(next % 0x100, last || len >= TX_SOFT_CAP);
      assert Sendable(f);
      var rest := Pack(q[1..], next + 1, len + CalcTxLen(f.len));
      Packed(Packet(ctrl, f) + rest.words, rest.sent + 1, rest.len)
  }

  /**
    The packer takes frames only while under the soft cap: the byte count
    is exactly the space the taken frames need, and the last frame taken
    started below 6144 bytes. With `Pack`'s own ensures (it stops early only
    at the cap) this fixes how many frames a batch holds.
  */
  lemma {:induction false} PackStopsAtCap(q: seq<TxFrame>, next: nat, len: nat)
    requires AllSendable(q) && len < TX_SOFT_CAP + CalcTxLen(MAX_TX_LEN - 1)
    ensures var b := Pack(q, next, len);
            && b.len == len + Needed(q[..b.sent])
            && (b.sent > 0 ==> len + Needed(q[..b.sent - 1]) < TX_SOFT_CAP)
    decreases |q|
  {
    var b := Pack(q, next, len);
    if q == [] || len >= TX_SOFT_CAP {
      assert q[..0] == [];
    } else {
      var c := CalcTxLen(q[0].len);
      assert Sendable(q[0]);
      var rest := Pack(q[1..], next + 1, len + c);
      PackStopsAtCap(q[1..], next + 1, len + c);
      var taken := q[..rest.sent + 1];
      assert taken[0] == q[0] && taken[1..] == q[1..][..rest.sent];
      if rest.sent == 0 {
        assert q[..0] == [];
      } else {
        var before := q[..rest.sent];
        assert before[0] == q[0] && before[1..] == q[1..][..rest.sent - 1];
      }
    }
  }

  /**
    `ks8851_wrpkts3`: nothing happens when the buffer cannot be allocated;
    otherwise one batch from an empty buffer, the u8 counter advancing once
    per frame taken.
  */
  function WrPkts3(q: seq<TxFrame>, fid: u8, allocOk: bool): (b: Batch)
    requires AllSendable(q)
    ensures b.fid == (fid + b.sent) % 0x100
  {
    if !allocOk then Batch([], 0, fid, 0)
    else
      var p := Pack(q, fid, 0);
      Batch(p.words, p.sent, (fid + p.sent) % 0x100, p.len)
  }

  /**
    A batch holds the frames the queue yields up to the soft cap: its byte
    count is the space those frames need, and the last of them was taken
    while the count was still below 6144.
  */
  lemma WrPkts3StopsAtCap(q: seq<TxFrame>, fid: u8, allocOk: bool)
    requires AllSendable(q)
    ensures var b := WrPkts3(q, fid, allocOk);
            && b.len == Needed(q[..b.sent])
            && (b.sent > 0 ==> Needed(q[..b.sent - 1]) < TX_SOFT_CAP)
  {
    if allocOk {
      PackStopsAtCap(q, fid, 0);
    } else {
      assert q[..0] == [];
    }
  }

  /**
    The batch fits the DMA buffer, the u16 byte count never wraps, and the
    byte count handed to the transfer is that of the words written. A
    non-empty queue always yields a transfer, so the status `ret` of a
    transfer that never happened is never read.
  */
  lemma WrPkts3Bounds(q: seq<TxFrame>, fid: u8, allocOk: bool)
    requires AllSendable(q)
    ensures var b := WrPkts3(q, fid, allocOk);
            && b.len == 4 * |b.words| < TX_SOFT_CAP + CalcTxLen(MAX_TX_LEN - 1) <= TX_DMA_BUFFER_SIZE
            && b.len < 0x1_0000
            && (allocOk && q != [] ==> b.len > 0 && b.sent > 0)
            && (!allocOk ==> b.sent == 0 && b.words == [])
            && (b.sent < |q| ==> b.len >= TX_SOFT_CAP || !allocOk)
  {
  }

  // ---------------------------------------------------------------------
  // Reading a batch back
  // ---------------------------------------------------------------------

  /** A frame as the chip reads it from the FIFO: the control half of its header and the frame. */
  datatype TxPacket = TxPacket(ctrl: nat, frame: TxFrame)

  /** The chip's view of a batch: header, then `ALIGN(len,4)/4` words swapped back; a truncated tail is dropped. */
  function ParseBatch(ws: seq<Word>): seq<TxPacket>
    decreases |ws|
  {
    if ws == [] then []
    else
      var v := Htonl(ws[0]);
      var ctrl := v.b0 + 0x100 * v.b1;
      var len := v.b2 + 0x100 * v.b3;
      var k := Align4(len) / 4;
      if 1 + k > |ws| then []
      else [TxPacket(ctrl, TxFrame(len, SwapAll(ws[1 .. 1 + k])))] + ParseBatch(ws[1 + k ..])
  }

  /**
    What a batch should carry: the first `n` queued frames in order, the
    i-th with the id the counter has after `next + i` steps (a u8 value),
    and TXFR_TXIC on the frame that was last in the queue.
  */
  function Expected(q: seq<TxFrame>, n: nat, next: nat): (r: seq<TxPacket>)
    requires n <= |q|
    ensures |r| == n
  {
    seq(n, i requires 0 <= i < n => TxPacket(Ctrl((next + i) % 0x100, i == |q| - 1), q[i]))
  }

  lemma ExpectedCons(q: seq<TxFrame>, n: nat, next: nat)
    requires 0 < n <= |q|
    ensures Expected(q, n, next)
         == [TxPacket(Ctrl(next % 0x100, |q| == 1), q[0])] + Expected(q[1..], n - 1, next + 1)
  {
    var a := Expected(q, n, next);
    var b := [TxPacket(Ctrl(next % 0x100, |q| == 1), q[0])] + Expected(q[1..], n - 1, next + 1);
    forall i | 0 <= i < n
      ensures a[i] == b[i]
    {
      if i > 0 {
        assert next + 1 + (i - 1) == next + i;
      }
    }
  }

  /** Only the counter's u8 value matters. */
  lemma ExpectedWrap(q: seq<TxFrame>, n: nat, next: nat)
    requires n <= |q|
    ensures Expected(q, n, next % 0x100) == Expected(q, n, next)
  {
    var a := Expected(q, n, next % 0x100);
    var b := Expected(q, n, next);
    forall i | 0 <= i < n
      ensures a[i] == b[i]
    {
      assert (next % 0x100 + i) % 0x100 == (next + i) % 0x100;
    }
  }

  lemma ParsePacket(ctrl: u16, f: TxFrame, rest: seq<Word>)
    requires Sendable(f)
    ensures ParseBatch(Packet(ctrl, f) + rest) == [TxPacket(ctrl, f)] + ParseBatch(rest)
  {
    var ws := Packet(ctrl, f) + rest;
    var k := |f.data|;
    assert ws[0] == TxHeader(ctrl, f.len);
    assert ws[1 .. 1 + k] == SwapAll(f.data);
    assert ws[1 + k ..] == rest;
    SwapAllInvolutive(f.data);
  }

  /** The packer's batch reads back as the expected frames: in order, none lost, ids and TXFR_TXIC as intended. */
  lemma {:induction false} PackRoundTrip(q: seq<TxFrame>, next: nat, len: nat)
    requires AllSendable(q) && len < TX_SOFT_CAP + CalcTxLen(MAX_TX_LEN - 1)
    ensures var b := Pack(q, next, len);
            ParseBatch(b.words) == Expected(q, b.sent, next)
    decreases |q|
  {
    if q != [] && len < TX_SOFT_CAP {
      var f := q[0];
      assert Sendable(f);
      var len' := len + CalcTxLen(f.len);
      var rest := Pack(q[1..], next + 1, len');
      var ctrl := Ctrl(next % 0x100, |q| == 1);
      assert Pack(q, next, len).words == Packet(ctrl, f) + rest.words;
      PackRoundTrip(q[1..], next + 1, len');
      ParsePacket(ctrl, f, rest.words);
      ExpectedCons(q, rest.sent + 1, next);
    }
  }

  /** One batch reads back as the queue's head frames. */
  lemma WrPkts3RoundTrip(q: seq<TxFrame>, fid: u8, allocOk: bool)
    requires AllSendable(q)
    ensures var b := WrPkts3(q, fid, allocOk);
            ParseBatch(b.words) == Expected(q, b.sent, fid)
  {
    if allocOk {
      PackRoundTrip(q, fid, 0);
    }
  }

  /**
    TXFR_TXIC is set exactly on the frame that empties the queue: the test
    `len >= 6144` next to `last` never holds, because the loop only runs
    while `len < 6144` and `len` has not moved since.
  */
  lemma PackIrqOnlyOnLast(q: seq<TxFrame>, fid: u8, i: nat)
    requires AllSendable(q) && i < WrPkts3(q, fid, true).sent
    ensures var ps := ParseBatch(WrPkts3(q, fid, true).words);
            i < |ps| && (ps[i].ctrl >= 0x8000 <==> i == |q| - 1)
  {
    var b := WrPkts3(q, fid, true);
    WrPkts3RoundTrip(q, fid, true);
    ExpectedIrq(q, b.sent, fid, i);
  }

  lemma ExpectedIrq(q: seq<TxFrame>, n: nat, next: nat, i: nat)
    requires i < n <= |q|
    ensures Expected(q, n, next)[i].ctrl >= 0x8000 <==> i == |q| - 1
  {
    var c := Ctrl((next + i) % 0x100, i == |q| - 1);
    assert Expected(q, n, next)[i] == TxPacket(c, q[i]);
  }

  // ---------------------------------------------------------------------
  // The transmit work
  // ---------------------------------------------------------------------

  /** The transfers of the batches, the frames still queued, the counter and statistics after them. */
  datatype TxRun = TxRun(transfers: seq<seq<Word>>, rest: seq<TxFrame>, fid: u8, packets: nat, bytes: nat)

  function Bytes(q: seq<TxFrame>): nat {
    if q == [] then 0 else q[0].len + Bytes(q[1..])
  }

  /**
    `while (!last) { ks8851_wrpkts3(ks); last = skb_queue_empty(&ks->txq); }`
    with the fate of each buffer allocation given in `allocs`. A failed
    allocation leaves the queue as it was and the loop tries again; the
    model stops when `allocs` runs out. Every batch adds its frames to
    `tx_packets` and their byte counts to `tx_bytes`.
  */
  function Batches(q: seq<TxFrame>, fid: u8, allocs: seq<bool>): (r: TxRun)
    requires AllSendable(q)
    ensures r.fid == (fid + r.packets) % 0x100
    decreases |allocs|
  {
    if q == [] || allocs == [] then TxRun([], q, fid, 0, 0)
    else
      var b := WrPkts3(q, fid, allocs[0]);
      assert b.sent <= |q| by { WrPkts3Bounds(q, fid, allocs[0]); }
      var rest := Batches(q[b.sent..], b.fid, allocs[1..]);
      FidStep(fid, b.sent, b.fid, rest.packets, rest.fid);
      TxRun((if b.sent > 0 then [b.words] else []) + rest.transfers, rest.rest, rest.fid,
            b.sent + rest.packets, Bytes(q[..b.sent]) + rest.bytes)
  }

  /** `ks8851_tx_work`: enable auto-enqueue and start the DMA access, send every batch, end the access. */
  function TxWork(q: seq<TxFrame>, fid: u8, allocs: seq<bool>, rxqcr: bv16): (r: (seq<Action>, TxRun))
    requires AllSendable(q)
  {
    if q == [] then ([], TxRun([], q, fid, 0, 0))
    else
      var run := Batches(q, fid, allocs);
      var sends := seq(|run.transfers|, i requires 0 <= i < |run.transfers| => WriteTxFifo(run.transfers[i]));
      var open := [Write16(KS_TXQCR, TXQCR_AETFE), Write16(KS_RXQCR, rxqcr | RXQCR_SDA)];
      (open + sends + (if run.rest == [] then [Write16(KS_RXQCR, rxqcr)] else []), run)
  }

  /** The frames all transfers carry, read back in order. */
  function Carried(ts: seq<seq<Word>>): seq<TxPacket> {
    if ts == [] then [] else ParseBatch(ts[0]) + Carried(ts[1..])
  }

  lemma ExpectedSplit(q: seq<TxFrame>, k: nat, n: nat, next: nat)
    requires k <= n <= |q|
    ensures Expected(q, n, next) == Expected(q, k, next) + Expected(q[k..], n - k, next + k)
  {
    var a := Expected(q, n, next);
    var b := Expected(q, k, next) + Expected(q[k..], n - k, next + k);
    forall i | 0 <= i < n
      ensures a[i] == b[i]
    {
      if i >= k {
        assert next + k + (i - k) == next + i;
      }
    }
  }

  /** A batch's frames come before those of the batches after it. */
  lemma CarriedBatch(words: seq<Word>, sent: bool, ts: seq<seq<Word>>)
    requires !sent ==> words == []
    ensures Carried((if sent then [words] else []) + ts) == ParseBatch(words) + Carried(ts)
  {
    if sent {
      var all := [words] + ts;
      assert all[0] == words && all[1..] == ts;
    } else {
      assert ([] + ts) == ts;
    }
  }

  /** The packets expected of `k` frames, then of `m` more from the counter's u8 value after `k` steps. */
  lemma ExpectedAfterBatch(q: seq<TxFrame>, k: nat, m: nat, fid: u8)
    requires k + m <= |q|
    ensures Expected(q, k + m, fid) == Expected(q, k, fid) + Expected(q[k..], m, (fid + k) % 0x100)
  {
    ExpectedSplit(q, k, k + m, fid);
    ExpectedWrap(q[k..], m, fid + k);
  }

  lemma {:induction false} BytesSplit(q: seq<TxFrame>, k: nat)
    requires k <= |q|
    ensures Bytes(q) == Bytes(q[..k]) + Bytes(q[k..])
    decreases k
  {
    if k > 0 {
      assert q[..k][1..] == q[1..][..k - 1];
      assert q[k..] == q[1..][k - 1..];
      BytesSplit(q[1..], k - 1);
    } else {
      assert q[..0] == [] && q[0..] == q;
    }
  }

  lemma ModShift(a: nat, b: nat)
    ensures (a % 0x100 + b) % 0x100 == (a + b) % 0x100
  {
  }

  /** The first batch of a non-empty queue and the runs after it. */
  lemma BatchesStep(q: seq<TxFrame>, fid: u8, allocs: seq<bool>)
    requires AllSendable(q) && q != [] && allocs != []
    ensures var b := WrPkts3(q, fid, allocs[0]);
            && b.sent <= |q| && AllSendable(q[b.sent..])
            && var rest := Batches(q[b.sent..], b.fid, allocs[1..]);
               Batches(q, fid, allocs)
                 == TxRun((if b.sent > 0 then [b.words] else []) + rest.transfers, rest.rest, rest.fid,
                          b.sent + rest.packets, Bytes(q[..b.sent]) + rest.bytes)
  {
    WrPkts3Bounds(q, fid, allocs[0]);
  }

  /** What the work has not sent is the tail of the queue. */
  lemma {:induction false} BatchesRest(q: seq<TxFrame>, fid: u8, allocs: seq<bool>)
    requires AllSendable(q)
    ensures var r := Batches(q, fid, allocs);
            r.packets <= |q| && r.rest == q[r.packets..]
    decreases |allocs|
  {
    if q != [] && allocs != [] {
      BatchesStep(q, fid, allocs);
      var b := WrPkts3(q, fid, allocs[0]);
      var q' := q[b.sent..];
      BatchesRest(q', b.fid, allocs[1..]);
      var n := Batches(q', b.fid, allocs[1..]).packets;
      assert q'[n..] == q[b.sent + n..];
    }
  }

  /** Counting `sent` frames and then `n` more moves the frame id by `sent + n`. */
  lemma FidStep(fid: u8, sent: nat, mid: u8, n: nat, last: u8)
    requires mid == (fid + sent) % 0x100 && last == (mid + n) % 0x100
    ensures last == (fid + (sent + n)) % 0x100
  {
    ModShift(fid + sent, n);
  }

  /** What the work has not sent is the tail of the queue, and the counter moved once per frame sent. */
  lemma BatchesProgress(q: seq<TxFrame>, fid: u8, allocs: seq<bool>)
    requires AllSendable(q)
    ensures var r := Batches(q, fid, allocs);
            && r.packets <= |q| && r.rest == q[r.packets..]
            && r.fid == (fid + r.packets) % 0x100
  {
    BatchesRest(q, fid, allocs);
  }

  /**
    The transmit work sends the queue's frames in order, each once, with
    successive frame ids and TXFR_TXIC on the frame that was last queued.
  */
  lemma {:induction false} BatchesSendInOrder(q: seq<TxFrame>, fid: u8, allocs: seq<bool>)
    requires AllSendable(q)
    ensures var r := Batches(q, fid, allocs);
            r.packets <= |q| && Carried(r.transfers) == Expected(q, r.packets, fid)
    decreases |allocs|
  {
    BatchesProgress(q, fid, allocs);
    if q != [] && allocs != [] {
      var b := WrPkts3(q, fid, allocs[0]);
      assert b.fid == (fid + b.sent) % 0x100;
      WrPkts3Bounds(q, fid, allocs[0]);
      BatchesStep(q, fid, allocs);
      WrPkts3RoundTrip(q, fid, allocs[0]);
      var q' := q[b.sent..];
      BatchesSendInOrder(q', b.fid, allocs[1..]);
      var rest := Batches(q', b.fid, allocs[1..]);
      CarriedStep(q, fid, b, rest.transfers, rest.packets);
    }
  }

  /** The frames of one batch followed by those of the batches after it are the expected frames of both. */
  lemma CarriedStep(q: seq<TxFrame>, fid: u8, b: Batch, ts: seq<seq<Word>>, m: nat)
    requires b.sent + m <= |q| && b.fid == (fid + b.sent) % 0x100
    requires b.sent == 0 ==> b.words == []
    requires ParseBatch(b.words) == Expected(q, b.sent, fid)
    requires Carried(ts) == Expected(q[b.sent..], m, b.fid)
    ensures Carried((if b.sent > 0 then [b.words] else []) + ts) == Expected(q, b.sent + m, fid)
  {
    CarriedBatch(b.words, b.sent > 0, ts);
    ExpectedAfterBatch(q, b.sent, m, fid);
  }

  /** `tx_packets` and `tx_bytes` grow by exactly the frames sent and their byte counts. */
  lemma {:induction false} BatchesStats(q: seq<TxFrame>, fid: u8, allocs: seq<bool>)
    requires AllSendable(q)
    ensures var r := Batches(q, fid, allocs);
            r.packets <= |q| && r.bytes == Bytes(q[..r.packets])
    decreases |allocs|
  {
    if q != [] && allocs != [] {
      BatchesStep(q, fid, allocs);
      var b := WrPkts3(q, fid, allocs[0]);
      var q' := q[b.sent..];
      BatchesStats(q', b.fid, allocs[1..]);
      var rest := Batches(q', b.fid, allocs[1..]);
      BytesPrefixSplit(q, b.sent, rest.packets);
    }
  }

  /** The bytes of the first `k + m` frames: those of the first `k`, then those of the next `m`. */
  lemma BytesPrefixSplit(q: seq<TxFrame>, k: nat, m: nat)
    requires k + m <= |q|
    ensures Bytes(q[..k + m]) == Bytes(q[..k]) + Bytes(q[k..][..m])
  {
    var n := k + m;
    assert q[..n][..k] == q[..k];
    assert q[..n][k..] == q[k..][..m];
    BytesSplit(q[..n], k);
  }

  lemma {:induction false} AllAllocsDrain(q: seq<TxFrame>, fid: u8, allocs: seq<bool>)
    requires AllSendable(q)
    requires |q| <= |allocs| && forall i :: 0 <= i < |allocs| ==> allocs[i]
    ensures Batches(q, fid, allocs).rest == []
    decreases |allocs|
  {
    if q != [] {
      var b := WrPkts3(q, fid, allocs[0]);
      WrPkts3Bounds(q, fid, allocs[0]);
      var q' := q[b.sent..];
      assert AllSendable(q');
      AllAllocsDrain(q', b.fid, allocs[1..]);
    }
  }

  /**
    When every allocation succeeds the work drains the queue: every queued
    frame is sent once, in order, the last one asking for the completion
    interrupt, and the DMA access is closed.
  */
  lemma {:induction false} TxWorkDrains(q: seq<TxFrame>, fid: u8, allocs: seq<bool>, rxqcr: bv16)
    requires AllSendable(q) && q != []
    requires |q| <= |allocs| && forall i :: 0 <= i < |allocs| ==> allocs[i]
    ensures var (acts, r) := TxWork(q, fid, allocs, rxqcr);
            && r.rest == [] && r.packets == |q|
            && Carried(r.transfers) == Expected(q, |q|, fid)
            && acts[..2] == [Write16(KS_TXQCR, TXQCR_AETFE), Write16(KS_RXQCR, rxqcr | RXQCR_SDA)]
            && |acts| == 3 + |r.transfers|
            && (forall i :: 0 <= i < |r.transfers| ==> acts[2 + i] == WriteTxFifo(r.transfers[i]))
            && acts[|acts| - 1] == Write16(KS_RXQCR, rxqcr)
  {
    AllAllocsDrain(q, fid, allocs);
    BatchesProgress(q, fid, allocs);
    BatchesSendInOrder(q, fid, allocs);
  }
}

=== FILE: words.dfy ===
/**
  FIFO data as the driver's 32-bit SPI transfers leave it in memory.

  A 32-bit transfer shifts each word most significant byte first, and the
  little-endian host stores that value lowest byte first. A run of FIFO
  bytes c0 c1 c2 c3 therefore lands in memory as c3 c2 c1 c0, and the
  driver's `htonl` over each word puts the bytes back in FIFO order. A
  word is kept here as its four bytes in memory order, so `htonl` is a
  reordering and the length fields are byte arithmetic.
*/
module Words {

  type byte = x: int | 0 <= x < 0x100

  /** A 32-bit word as its bytes in memory order, lowest address first. */
  datatype Word = Word(b0: byte, b1: byte, b2: byte, b3: byte)

  /** `htonl` (and `ntohl`) on a little-endian host: the bytes of the word in reverse order. */
  function Htonl(w: Word): Word {
    Word(w.b3, w.b2, w.b1, w.b0)
  }

  /** The bytes of a memory word in the order a 32-bit SPI transfer moves them. */
  function WireOrder(w: Word): (r: seq<byte>)
    ensures |r| == 4
  {
    [w.b3, w.b2, w.b1, w.b0]
  }

  /** The bytes of a memory word in address order. */
  function MemoryOrder(w: Word): (r: seq<byte>)
    ensures |r| == 4
  {
    [w.b0, w.b1, w.b2, w.b3]
  }

  /** The word a 32-bit read stores for four FIFO bytes: the inverse of `WireOrder`. */
  function FromWire(c: seq<byte>): (w: Word)
    requires |c| == 4
    ensures WireOrder(w) == c
  {
    Word(c[3], c[2], c[1], c[0])
  }

  /** Byte-swap every word of a buffer, as the driver's `htonl` loops do. */
  function SwapAll(ws: seq<Word>): (r: seq<Word>)
    ensures |r| == |ws|
    ensures forall i :: 0 <= i < |ws| ==> r[i] == Htonl(ws[i])
  {
    seq(|ws|, i requires 0 <= i < |ws| => Htonl(ws[i]))
  }

  lemma SwapAllInvolutive(ws: seq<Word>)
    ensures SwapAll(SwapAll(ws)) == ws
  {
    var r := SwapAll(SwapAll(ws));
    forall i | 0 <= i < |ws|
      ensures r[i] == ws[i]
    {
    }
  }

  lemma SwapAllPrefix(ws: seq<Word>, k: nat)
    requires k <= |ws|
    ensures SwapAll(ws)[..k] == SwapAll(ws[..k])
  {
    var a := SwapAll(ws)[..k];
    var b := SwapAll(ws[..k]);
    forall i | 0 <= i < k
      ensures a[i] == b[i]
    {
    }
  }

  lemma SwapAllAppend(xs: seq<Word>, ys: seq<Word>)
    ensures SwapAll(xs + ys) == SwapAll(xs) + SwapAll(ys)
  {
    var a := SwapAll(xs + ys);
    var b := SwapAll(xs) + SwapAll(ys);
    forall i | 0 <= i < |xs| + |ys|
      ensures a[i] == b[i]
    {
    }
  }

  /** The bytes a 32-bit transfer moves for a sequence of memory words. */
  function Wire(ws: seq<Word>): (r: seq<byte>)
    ensures |r| == 4 * |ws|
  {
    if |ws| == 0 then [] else WireOrder(ws[0]) + Wire(ws[1..])
  }

  /** The bytes of a sequence of memory words in address order. */
  function Memory(ws: seq<Word>): (r: seq<byte>)
    ensures |r| == 4 * |ws|
  {
    if |ws| == 0 then [] else MemoryOrder(ws[0]) + Memory(ws[1..])
  }

  /**
    Swapping every word before a 32-bit transfer makes the wire carry the
    buffer's bytes in address order; this is why the driver swaps.
  */
  lemma {:induction false} WireOfSwapped(ws: seq<Word>)
    ensures Wire(SwapAll(ws)) == Memory(ws)
  {
    if |ws| > 0 {
      WireOfSwapped(ws[1..]);
      assert SwapAll(ws)[1..] == SwapAll(ws[1..]);
    }
  }

  /** The first `n` words a bus read returns from a word stream. */
  function Take(s: nat -> Word, n: nat): (r: seq<Word>)
    ensures |r| == n
    ensures forall i :: 0 <= i < n ==> r[i] == s(i)
  {
    seq(n, i requires 0 <= i < n => s(i))
  }
}
